=== FILE: README.md ===
# Strava to Obsidian: a Dafny model of the client core

This project models the part of the `strava_to_obsidian` package that talks to
Strava and reads its answers. It models the code, not the machinery around it:

- **Token state** (`config.py`). The credentials come from the environment. The
  token triple lives in memory and is written through to a token file. The file
  is an entry of an abstract disk.
- **The token lifecycle** (`auth.py`):
  - the five-minute expiry test;
  - `refresh_access_token` and `ensure_valid_token`;
  - the one-shot redirect classifier;
  - the authorization URL;
  - the code exchange and the outcome order of `authenticate`.
- **The request executor** (`api.py`):
  - rate-limit header parsing;
  - `_request`, with its shared retry counter. A timeout sleeps 5 s. A 429
    sleeps 60 · 2^n s. A 401, 403 or 404 fails at once.
  - the `get_activities` pagination loop;
  - the rate-limit status line.
- **The activity data model** (`models.py`):
  - `format_duration`, the sport icon table, `is_run_or_walk` and `strava_url`;
  - how `Activity.from_api_response` and `Lap.from_api_response` read a decoded
    JSON object, including the exceptions Python raises on ill-shaped input.

Inputs that the code gets from the outside world become parameters:

- The wall clock becomes the instant `now` of each token check.
- Every POST to the token endpoint becomes the reply it came back with.
- The loopback listener becomes the one query it captured, if any.
- Every API call becomes one scripted `Attempt`. It holds the instant of its
  token check, the refresh reply, and the server's outcome.

`_request` retries by calling itself. `Requests.RequestFrom` follows that
recursion. `Requests.Request` runs it as a bounded loop that records the
sleeps, the bearer tokens it sent and the attempts it used.

Python semantics are spelled out where the code depends on them:

- truthiness;
- `dict.get` with a default applies only to a missing key, not to a null value;
- floor division in `divmod`;
- `int()` on a header part, which accepts surrounding spaces, a sign and
  underscores;
- `str.split`;
- `raise_for_status`, which covers 400 to 599 only;
- a body that does not decode counts as a `RequestException`;
- the partial assignments of `_update_rate_limits` before an exception;
- the `KeyError` of a token body that is missing a key. It escapes every
  `except requests.RequestException`.

The module layout follows the package:

| module | file | models |
|---|---|---|
| `Config` | config.dfy | `config.py` |
| `Auth` | auth.dfy | `auth.py` |
| `RateLimits` | ratelimit.dfy | `RateLimitInfo`, `_update_rate_limits` and `get_rate_limit_status` in `api.py` |
| `Requests` | request.dfy | `StravaAPIError` and `_request` in `api.py` |
| `Pagination` | pagination.dfy | `get_activities` in `api.py` |
| `Models` | models.dfy | `models.py` |

Three support modules model the Python and standard-library behaviour the core
relies on:

- `Text`: decimal rendering, `int()`, `strip`, `split`/`join`.
- `Json`: decoded JSON, `dict.get` and truthiness.
- `UrlEncoding`: `urlencode` with `quote_plus`, and a decoder used to state what
  an encoded query carries.

`Wrappers` holds `Option` and `Result`.

For k activities at n per page, `get_activities` makes ⌊k / n⌋ + 1 requests.
When n divides k, the last request gets an empty page
(`Pagination.HonestServer`).

## Model

| member | source | states |
|---|---|---|
| `Config.HasTokensIgnoresExpiry` | src/strava_to_obsidian/config.py:88-90 | Tokens are present iff both the access and the refresh token are non-empty; the expiry instant plays no part. |
| `Config.HasTokens` | src/strava_to_obsidian/config.py:88-90 | The presence test itself, a predicate with no contract of its own; `Config.HasTokensIgnoresExpiry` states that the expiry plays no part. |
| `Config.HasValidCredentials` | src/strava_to_obsidian/config.py:84-86 | The credentials test, a predicate with no contract of its own; `Config.LoadCredentials` states when it holds after a load. |
| `Config.FromEnvironment` | src/strava_to_obsidian/config.py:39-43 | The client id and secret are the environment's values, or "" when unset; no tokens and expiry 0 before the token file is read. |
| `Config.ReadTokens` | src/strava_to_obsidian/config.py:45-55 | A missing or unreadable token file changes nothing. Otherwise each of the three keys is read on its own, with "" / "" / 0 for an absent key. The credentials are untouched. |
| `Config.LoadAsWritten` | src/strava_to_obsidian/config.py:34-57 | The as-written load reads the in-memory tokens from the file next to the config path (the default file without one). It leaves `token_file` at the default `.strava_tokens.json` whichever file it read, and does not touch the disk. |
| `Config.Load` | src/strava_to_obsidian/config.py:34-57 | The corrected load: `token_file` is the file the tokens were read from (next to the config file when a path is given), and the in-memory tokens are what that file holds. |
| `Config.LoadAgreesWithoutConfigPath` | src/strava_to_obsidian/config.py:46 | Without a config path, as the command line calls it, the as-written and the corrected load agree exactly. |
| `Config.SaveTokens` | src/strava_to_obsidian/config.py:59-76 | Exactly the three token fields change in memory. The configured token file then holds exactly that triple. Every other file is unchanged, and no other file appears. |
| `Config.LoadWithoutTokenFile` | src/strava_to_obsidian/config.py:45-57 | Without a readable token file the loaded config has empty tokens, expiry 0, and no tokens. |
| `Config.LoadCredentials` | src/strava_to_obsidian/config.py:42-43 | After loading, the credentials are valid iff both environment variables are set and non-empty. |
| `Config.SaveThenLoad` | src/strava_to_obsidian/config.py:46-76 | Round trip: loading again after `save_tokens` yields exactly the in-memory config, including the saved triple. |
| `Config.SaveThenLoadSession` | src/strava_to_obsidian/config.py:46-76 | The same round trip for any session whose credentials came from the same environment and whose token file is the one the load reads. |
| `Config.LoadAsWrittenLosesSavedTokens` | src/strava_to_obsidian/config.py:46-75 | With a config path in another directory, tokens saved after the as-written load are not seen by the next as-written load: it reads no tokens. |
| `Auth.FormFields` | src/strava_to_obsidian/auth.py:95-133 | Both token forms send four fields: `client_id` and `client_secret` first, then the grant's own field, then `grant_type`. The grant type is `authorization_code` iff the form carries a code. |
| `Auth.TokenTriple` | src/strava_to_obsidian/auth.py:137-141 | The triple is read iff all three keys are present, and is then their values. Otherwise a `KeyError` names the first key missing, checked in order access, refresh, expiry. |
| `Auth.IsTokenExpired` | src/strava_to_obsidian/auth.py:147-150 | The expiry test, a predicate with no contract of its own; `Auth.ExpiryBoundary` states its boundary and monotonicity. |
| `Auth.ExpiryBoundary` | src/strava_to_obsidian/auth.py:147-150 | Expired iff `now > expires_at - 300`. The boundary instant is still valid. Expiry is monotone in time. |
| `Auth.RefreshAccessToken` | src/strava_to_obsidian/auth.py:118-144 | The refresh as a function with no contract of its own, so that its callers stay cheap to verify; `Auth.RefreshAccessTokenOutcomes` and `Auth.RefreshForm` state what it does. |
| `Auth.RefreshAccessTokenOutcomes` | src/strava_to_obsidian/auth.py:118-144 | Without a refresh token: false, nothing posted. Otherwise the refresh form is posted. Only a received body with all three keys succeeds, and it saves exactly that triple. A missing key raises `KeyError`. Any other outcome leaves the session as it was. |
| `Auth.RefreshForm` | src/strava_to_obsidian/auth.py:126-131 | With a refresh token, the posted form is exactly `client_id`, `client_secret`, `refresh_token` (the stored one) and `grant_type=refresh_token`, in that order. |
| `Auth.EnsureValidToken` | src/strava_to_obsidian/auth.py:153-161 | The validity check as a function with no contract of its own; `Auth.EnsureValidTokenOutcomes` states what it does. |
| `Auth.EnsureValidTokenOutcomes` | src/strava_to_obsidian/auth.py:153-161 | No tokens: false, no refresh, session unchanged. Unexpired tokens: true, no refresh, session unchanged. Expired tokens: exactly the outcome of `refresh_access_token`. So a refresh is posted iff tokens are present and expired. A refresh that succeeded carries the new access token and writes the new triple to the token file. A failure leaves the session unchanged. |
| `Auth.HandleCallback` | src/strava_to_obsidian/auth.py:38-73 | A `code` wins, even over `error`: 200 with the first code. Else an `error`: 400 with the first `error_description`, or "Unknown error". Else 404 with nothing captured. |
| `Auth.CallbackStatusMatchesCapture` | src/strava_to_obsidian/auth.py:43-73 | The status tells the captures apart in both directions: 200 iff a code, 400 iff an error, 404 iff nothing; no other status. |
| `Auth.CallbackExamples` | src/strava_to_obsidian/auth.py:43-58 | An approval redirect captures `ABC123`. A denial captures its description, or "Unknown error". A code together with an error captures the code. An unrelated query gets 404. |
| `Auth.AuthorizationUrlCarries` | src/strava_to_obsidian/auth.py:80-88 | The URL is the authorize endpoint, `?`, then a query that decodes to exactly the client id, the loopback redirect URI, `response_type=code` and the scope `read,activity:read_all`, in that order. |
| `Auth.AuthorizationUrl` | src/strava_to_obsidian/auth.py:80-88 | The URL as a function with no contract of its own; `Auth.AuthorizationUrlCarries` states what the query carries. |
| `Auth.AthleteNameFull` | src/strava_to_obsidian/auth.py:114 | First and last name present: they are joined by one space. |
| `Auth.AthleteNameFirstOnly` | src/strava_to_obsidian/auth.py:114 | Only a first name: the separator is stripped and the name is the first name. |
| `Auth.AthleteNameLastOnly` | src/strava_to_obsidian/auth.py:114 | Only a last name: the name is the last name. |
| `Auth.AthleteDefaults` | src/strava_to_obsidian/auth.py:108-114 | No athlete object: an empty name and athlete id 0. |
| `Auth.ExchangeCodeForTokens` | src/strava_to_obsidian/auth.py:91-115 | A request exception fails the exchange. A body missing a token key raises `KeyError` for that key. Otherwise the response carries the triple, the athlete id (default 0) and the stripped name. |
| `Auth.Authenticate` | src/strava_to_obsidian/auth.py:164-207 | The login flow as a function with no contract of its own; `Auth.AuthenticateOutcomes`, `Auth.AuthenticateSuccess` and `Auth.AuthenticateFollowsCapture` state its outcomes. |
| `Auth.AuthenticateOutcomes` | src/strava_to_obsidian/auth.py:164-189 | Missing credentials fail before any listener or browser, with nothing opened or posted. Otherwise the authorization URL for the client id is opened. Every failure leaves the session unchanged. |
| `Auth.AuthenticateSuccess` | src/strava_to_obsidian/auth.py:197-207 | A success always posted a code grant, and saves exactly the triple it received. |
| `Auth.AuthenticateFollowsCapture` | src/strava_to_obsidian/auth.py:191-202 | With credentials: no callback or no capture times out and posts nothing. A non-empty error is reported and nothing is posted. A non-empty code is posted with the client credentials, and the result is that of the exchange. |
| `Auth.AuthenticateWithCode` | src/strava_to_obsidian/auth.py:194-202 | A redirect with `code=ABC123` leads to posting exactly that code, as the form `client_id`, `client_secret`, `code=ABC123`, `grant_type=authorization_code`. |
| `RateLimits.Remaining15Min` | src/strava_to_obsidian/api.py:25-27 | Usage plus remaining is the 15-minute limit. |
| `RateLimits.RemainingDaily` | src/strava_to_obsidian/api.py:29-31 | Usage plus remaining is the daily limit. |
| `RateLimits.IsLimited` | src/strava_to_obsidian/api.py:33-34 | The limit test, a predicate with no contract of its own; `RateLimits.LimitedIffNothingRemaining` states it in terms of the remaining calls. |
| `RateLimits.LimitedIffNothingRemaining` | src/strava_to_obsidian/api.py:20-34 | Limited iff one of the windows has nothing remaining. The defaults (100 and 1000) are not limited. |
| `RateLimits.UpdateRateLimits` | src/strava_to_obsidian/api.py:57-62 | With either header absent or empty, nothing changes. |
| `RateLimits.UpdateAssignsPrefix` | src/strava_to_obsidian/api.py:62-71 | With both headers present, the fields are assigned in source order (15-min limit, daily limit, 15-min usage, daily usage). Field k takes parse k iff parses 0..k all succeed, and otherwise keeps its old value. |
| `RateLimits.UpdateFromRenderedHeaders` | src/strava_to_obsidian/api.py:57-71 | Round trip: the headers a server sends for a state update the tracker to exactly that state. |
| `RateLimits.UpdateIgnoresExtraParts` | src/strava_to_obsidian/api.py:64-69 | Once each header has two parts, parts appended after them change nothing. |
| `RateLimits.HeaderExamples` | src/strava_to_obsidian/api.py:57-71 | `100,1000` / `42,842` leaves 58 and 158 calls and is not limited. `100,1000` / `100,842` is limited. |
| `RateLimits.RateLimitStatus` | src/strava_to_obsidian/api.py:174-179 | The status line as a function with no contract of its own; `RateLimits.RateLimitStatusInjective` states that it determines all four counters. |
| `RateLimits.RateLimitStatusInjective` | src/strava_to_obsidian/api.py:174-179 | The status line determines all four counters it reports. |
| `Requests.Classify` | src/strava_to_obsidian/api.py:97-125 | A retry happens only after a timeout or a 429, and only while `retry_count < 3`. A transport failure, any other 4xx or 5xx, or an undecodable body fails with "Request failed" and code 0. A timeout with the counter spent fails with "Request timed out" and code 0. A response outside 400-599 with a decodable body returns that body. Every error is a `StravaAPIError` whose status code is the one its message carries, and never a token-check failure. |
| `Requests.ClassifyAccepts` | src/strava_to_obsidian/api.py:115-116 | A body is returned only from a response outside 400-599, and is exactly that response's decoded body. |
| `Requests.RunAttempt` | src/strava_to_obsidian/api.py:81-95 | A call is sent iff the token check returned true. The bearer sent is the access token of the checked, possibly refreshed, session, and that session is kept. A false check fails as not authenticated (code 0). A `KeyError` from the refresh is raised as is. A failed check leaves the rate limits untouched. A sent call always updates the rate limits from its headers, whatever its status, and is dispatched on its outcome. |
| `Requests.RequestFrom` | src/strava_to_obsidian/api.py:73-125 | The self-recursion of `_request` as a function with no contract of its own; the lemmas below state its properties and `Requests.Request` computes it. |
| `Requests.Request` | src/strava_to_obsidian/api.py:73-125 | The loop computes exactly what the self-recursive `_request` does, from `retry_count = 0`. |
| `Requests.RequestBounds` | src/strava_to_obsidian/api.py:82-121 | At most 4 attempts, because one counter serves 429s and timeouts. One sleep separates consecutive attempts. Every attempt sent a call, except that the last one sent none exactly when the call failed on the token check (not authenticated, or a `KeyError`). |
| `Requests.RetryFollowsTimeoutOrRateLimit` | src/strava_to_obsidian/api.py:97-121 | An attempt retries only after a timeout or a 429, with the delay for its retry count. |
| `Requests.RetrySchedule` | src/strava_to_obsidian/api.py:97-121 | Sleep k follows attempt k, which timed out or got a 429. It lasts 5 s after a timeout and 60 · 2^k s after a 429. |
| `Requests.RateLimitsFollowResponses` | src/strava_to_obsidian/api.py:95 | The tracked limits after the call are the fold of the header updates of every sent call, in order, 429s and errors included. |
| `Requests.RequestWithoutTokens` | src/strava_to_obsidian/api.py:82-83 | Without tokens the call fails as not authenticated (code 0) after one attempt: nothing sent, no sleep, client unchanged. |
| `Requests.ConsecutiveRateLimits` | src/strava_to_obsidian/api.py:97-104 | Four 429s with valid tokens: sleeps of 60, 120 and 240 s, then a 429 error after 4 attempts, each sending the same access token. |
| `Requests.TimeoutThenRateLimit` | src/strava_to_obsidian/api.py:97-121 | A timeout then a 429: sleeps of 5 and 120 s, since the 429 backoff counts the timeout's retry. |
| `Requests.ImmediateFailures` | src/strava_to_obsidian/api.py:95-113 | A 401, 403 or 404 fails at once with that status code: one attempt, no sleep, the response's headers already read. |
| `Requests.CodeZeroFailures` | src/strava_to_obsidian/api.py:95-125 | With valid tokens, a transport failure, another 4xx or 5xx, or an undecodable body fails at once with "Request failed" and code 0: one call with the current token, no sleep, the headers read. |
| `Requests.AcceptedResponse` | src/strava_to_obsidian/api.py:95-116 | With valid tokens, a response outside 400-599 whose body decodes is returned at once: one call, no sleep, the headers read. |
| `Requests.TimeoutsRunOut` | src/strava_to_obsidian/api.py:118-122 | Four timeouts with valid tokens: sleeps of 5, 5 and 5 s, then "Request timed out" with code 0 after 4 attempts, each sending the same access token, and the client unchanged. |
| `Requests.StatusCodesMatchKinds` | src/strava_to_obsidian/api.py:104-125 | Every error raised carries the code of its message. The code is non-zero iff the failure is a rate limit, an authentication failure, a forbidden access or a not-found. |
| `Requests.SuccessComesFromAnAcceptedResponse` | src/strava_to_obsidian/api.py:115-116 | A returned body is the decoded body of the last attempt's response. That response's status is outside 400-599, and every attempt sent a call. |
| `Pagination.Clamp` | src/strava_to_obsidian/api.py:149 | The page size sent is `per_page` or 200, whichever is smaller. |
| `Pagination.FetchFrom` | src/strava_to_obsidian/api.py:156-158 | The first request asks for the given page number with the clamped page size and the caller's bounds. |
| `Pagination.FetchShape` | src/strava_to_obsidian/api.py:148-168 | Pages 1, 2, ... are requested up to and including the first that ends the loop, and no further. The items are the in-order concatenation of the fetched pages. A failure ends the output with that page's error. |
| `Pagination.FullPageContinues` | src/strava_to_obsidian/api.py:160-168 | A non-empty page at least as long as the threshold is followed by another request. |
| `Pagination.GetActivitiesAsWritten` | src/strava_to_obsidian/api.py:131-168 | The loop as written starts at page 1 with the clamped page size and the caller's bounds; its short-page threshold is the unclamped `per_page`. |
| `Pagination.GetActivities` | src/strava_to_obsidian/api.py:131-168 | The corrected loop starts at page 1 with the clamped page size and the caller's bounds; its short-page threshold is the page size sent. |
| `Pagination.HonestServer` | src/strava_to_obsidian/api.py:131-168 | Against a server that honours the page size, the corrected loop yields every activity in order, with no error. It makes k requests, where (k-1)·n <= total < k·n. |
| `Pagination.AsWrittenAgreesUpTo200` | src/strava_to_obsidian/api.py:149-165 | For `per_page <= 200` the as-written loop behaves exactly like the corrected one. |
| `Pagination.AsWrittenStopsAfterFirstPage` | src/strava_to_obsidian/api.py:165-166 | As written, `per_page > 200` stops after page 1 whenever it holds at most 200 items. |
| `Pagination.AsWrittenLosesActivities` | src/strava_to_obsidian/api.py:149-166 | As written, `per_page > 200` on an account with more than 200 activities yields only the first 200. |
| `Models.FormatDuration` | src/strava_to_obsidian/models.py:59-65 | The text has at least four characters (`M:SS`). |
| `Models.LongDurationReadsBack` | src/strava_to_obsidian/models.py:64 | `H:MM:SS` has three fields and reads back as 3600·H + 60·M + S. |
| `Models.ShortDurationReadsBack` | src/strava_to_obsidian/models.py:65 | `M:SS` has two fields and reads back as 60·M + S. |
| `Models.DurationRoundTrip` | src/strava_to_obsidian/models.py:59-65 | Round trip: a non-negative duration reads back exactly, through a reader that accepts only the canonical forms. There are three fields iff the duration is an hour or more. The seconds are always two digits, and so are the minutes in `H:MM:SS`. The minutes of `M:SS` and the hours are unpadded. |
| `Models.NegativeDurationDropsHours` | src/strava_to_obsidian/models.py:61-65 | A negative duration prints as its floored remainder within the hour, always as `M:SS`. |
| `Models.MinuteDurationExample` | tests/test_exporter.py:16 | 90 s prints as `1:30`. |
| `Models.LastMinuteDurationExample` | tests/test_exporter.py:17 | 3599 s prints as `59:59`. |
| `Models.HourDurationExample` | tests/test_exporter.py:21 | 3600 s prints as `1:00:00`. |
| `Models.HoursDurationExample` | tests/test_exporter.py:22 | 3661 s prints as `1:01:01`. |
| `Models.TwoHoursDurationExample` | tests/test_exporter.py:23 | 7325 s prints as `2:02:05`. |
| `Models.GetSportIcon` | src/strava_to_obsidian/models.py:54-56 | The table's icon for a listed sport type; the medal for any other. |
| `Models.MedalMeansUnknown` | src/strava_to_obsidian/models.py:11-56 | The medal is returned iff the sport type is not in the table: no entry uses it. |
| `Models.IconExamples` | tests/test_exporter.py:33-35 | Run, Ride and Swim get the runner, the cyclist and the swimmer. |
| `Models.UnknownSportIcon` | tests/test_exporter.py:36 | An unknown sport type gets the medal. |
| `Models.ActivityIcon` | src/strava_to_obsidian/models.py:227-230 | The lookup fails with `TypeError` iff `sport_type` holds a list or dict. A string is looked up. Any other value gets the medal. |
| `Models.ActivityIconDefault` | src/strava_to_obsidian/models.py:227-230 | The medal is what `Activity.icon` gives exactly when `sport_type` is hashable and is not a string listed in the table. |
| `Models.IsRunOrWalk` | src/strava_to_obsidian/models.py:292-300 | True iff `sport_type` is one of Run, TrailRun, VirtualRun, Walk, Hike. A list or dict raises `TypeError`. |
| `Models.RunOrWalkIcons` | src/strava_to_obsidian/models.py:292-300 | Every run-or-walk type has the runner, walker or boot icon. The converse fails: Elliptical has the runner but no pace display. |
| `Models.StravaUrl` | src/strava_to_obsidian/models.py:281-284 | The URL starts with the activities prefix and has a non-empty id segment. |
| `Models.StravaUrlCarriesId` | src/strava_to_obsidian/models.py:281-284 | The id parses back from the URL's last segment. |
| `Models.StravaUrlInjective` | src/strava_to_obsidian/models.py:281-284 | Distinct ids give distinct URLs. |
| `Models.LapFromApiResponse` | src/strava_to_obsidian/models.py:109-119 | Each absent key takes its default (lap index 1, zero distance, time, speed and gain). A present `lap_index` is taken as is. The heart rate is `None` when absent. |
| `Models.LapReadsPresentKeys` | src/strava_to_obsidian/models.py:109-119 | With all keys present, the lap holds exactly the object's values. |
| `Models.LapRoundTrip` | src/strava_to_obsidian/models.py:109-119 | Round trip: a lap rendered as an object with its six keys reads back as the same lap. |
| `Models.LapsRoundTrip` | src/strava_to_obsidian/models.py:202-204 | Round trip: a rendered list of laps reads back as the same laps, in order. |
| `Models.PhotoUrl` | src/strava_to_obsidian/models.py:193-200 | Success implies `photos` is a dict (or absent). A count that is not positive gives no photo. |
| `Models.StartDate` | src/strava_to_obsidian/models.py:189-191 | A falsy `start_date_local` (or `start_date` when it is absent) means the clock (`None`). A string the parser accepts is kept. A string it cannot read raises `ValueError`. A string whose parsed field exceeds a C integer raises `OverflowError`. Any other truthy value raises `TypeError`. |
| `Models.LapsOf` | src/strava_to_obsidian/models.py:202-204 | A list of objects gives one lap per element, in order. A list holding a non-object raises `AttributeError`. |
| `Models.MapLaps` | src/strava_to_obsidian/models.py:204 | One lap per element, in order, each read from that element. The first non-object raises `AttributeError`. |
| `Models.ActivityFromApiResponse` | src/strava_to_obsidian/models.py:184-225 | Success iff the start date, the photos and the laps are well formed and `id` is present. Start-date errors come first, then photo errors, then lap errors, then `KeyError('id')`. A success holds the id, the parsed start date, the name and sport-type fallbacks, the photo, the laps and the raw object. Every other field is the object's value when its key is present. Otherwise it is the default: 0 for `elapsed_time` and `moving_time`, 0.0 for `distance`, `average_speed` and `total_elevation_gain`, and `None` for `description`, `max_speed`, `average_heartrate`, `max_heartrate`, `calories` and `start_latlng`. |
| `Models.MinimalActivity` | src/strava_to_obsidian/models.py:189-225 | An object with only an id reads with every default: the clock for the start date, "Untitled Activity", "Workout", zero times and distance, no description, speed or photo, and no laps. |
| `Models.MissingId` | src/strava_to_obsidian/models.py:189-207 | Without an id, and with no photos or laps to trip over, the read raises `KeyError('id')`, unless the start date raised first. |
| `Models.UnparsableStartDate` | src/strava_to_obsidian/models.py:189-191 | `{"id": 1, "start_date_local": "not a date"}` raises the parser's `ValueError` when the parser rejects that text. |
| `Models.OverflowingStartDate` | src/strava_to_obsidian/models.py:189-191 | A start date the parser finds out of C-integer range raises `OverflowError` out of `from_api_response`, since no handler catches it. |
| `Models.NonStringStartDate` | src/strava_to_obsidian/models.py:189-196 | `{"photos": null, "start_date": 5}` raises `TypeError` from the date parser, before the null `photos` is read. |
| `Models.StartDatePrecedence` | src/strava_to_obsidian/models.py:190-191 | `start_date_local` wins over `start_date`, and an empty `start_date_local` falls back to the clock, not to `start_date`. |
| `Models.SportTypeFallback` | src/strava_to_obsidian/models.py:209 | `sport_type` wins over `type`. `type` is used only when `sport_type` is absent, then "Workout". |
| `Models.PhotoSelection` | src/strava_to_obsidian/models.py:196-200 | For any object whose `photos`, `primary` and `urls` are objects (or absent) and whose count is positive: the photo is the 600 px URL when that is truthy, otherwise whatever the 100 px entry holds (`None` when missing). |
| `Models.NoPhotoWithoutCount` | src/strava_to_obsidian/models.py:194-196 | A zero count gives no photo, whatever `primary` holds. |
| `Models.NullPhotosRaise` | src/strava_to_obsidian/models.py:189-196 | An explicit `"photos": null` has no `get` and raises `AttributeError`, unless the start date raised first; nothing after the photos is read. |
| `Models.ActivityReadsPresentKeys` | src/strava_to_obsidian/models.py:206-225 | When every field key is present, a successful read holds exactly the object's values, the defaults playing no part. |
| `Models.ActivityLapsRoundTrip` | src/strava_to_obsidian/models.py:202-204 | An activity whose `laps` is a rendered lap list reads back exactly those laps. |
| `Models.TestSuiteActivityKind` | tests/test_exporter.py:65-66 | A run has the runner icon and a pace display. |
| `Models.TestSuiteActivity` | tests/test_exporter.py:38-61 | The test suite's activity reads with the id, name, sport type, distance and start date it was given, when the parser accepts the date. |

## Left out

- HTTP, sockets, the threaded loopback listener and its 120-second wait, the browser, `time.sleep` and `time.time`. They become parameters, as described above: sleeps are recorded, not slept.
- `print` output and the text of every exception message. The message of a `StravaAPIError` is its `ErrorKind`. The wrapped exception text of "Request failed: ..." is dropped.
- `load_dotenv` and `os.environ`. The environment is a parameter, taken after `.env` has been merged.
- The on-disk JSON encoding of the token file, `mkdir`, and `chmod 0o600`. A token file decodes to a record whose three keys may each be absent, or it is unreadable.
- `Config.output_dir`: the core does not use it.
- `Config.ReadTokens`: a token file that is not valid text in the locale encoding raises `UnicodeDecodeError`. The `except` does not catch it, so `Config.load` raises. The model has no such file: every file decodes to tokens or is `Unreadable`, which the `except` does catch.
- `Config.SaveTokens`: always succeeds. In the source a failing `mkdir` or `open` raises `OSError` after the in-memory fields were set. That error escapes `refresh_access_token`, `_request` and `authenticate` with memory and disk out of step. File-system failures are outside this model.
- A token file holding JSON that is not an object. `tokens.get` then raises `AttributeError`, which the source does not catch. The model has no such file.
- Token-file and token-endpoint values of the wrong JSON type. Each token field is typed: a string or an integer.
- `Auth.ExchangeCodeForTokens`: an explicit `"athlete": null` is read like a missing athlete. The source would raise `AttributeError` on `None.get`.
- `Auth.AuthorizationUrlCarries`: stated for ASCII client ids only. The decoder used to state it undoes `quote_plus` byte by byte, and multi-byte UTF-8 is not decoded back.
- `Auth.AuthenticateOutcomes`: the opened URL is recorded as its query, `AuthorizationParams(client_id)`. The string itself is `UrlWithQuery` of that query, as `AuthorizationUrlCarries` describes.
- `urllib.parse.urlparse` and `parse_qs` on the redirect path. The classifier takes the parsed query (names mapped to non-empty value lists).
- Case-insensitive header lookup (`requests`' `CaseInsensitiveDict`). Headers are matched by their exact names.
- `int()` on Unicode digits other than ASCII `0`-`9`.
- The endpoint, URL and query parameters of each `_request` call, and `_get_headers`. The bearer token sent is recorded instead. `get_athlete` and `get_activity_detail` are single `_request` calls with a different endpoint, and add nothing to `Requests.Request`.
- `Pagination.HonestServer`: only for `per_page >= 1`. What Strava does with a page size of zero or less is not modelled.
- Page bodies that are JSON but not a list. `get_activities` would iterate a dict's keys. Pages are lists of JSON values.
- The generator's laziness. The pagination output is collected in full, so a consumer that stops early is not modelled.
- Floating point: `format_pace`, `format_pace_per_mi`, `meters_to_miles`, `meters_to_feet` and every unit-converting property of `Lap` and `Activity`.
- `dateutil` parsing and `datetime.now()`. The parser's verdict on a string is a parameter with three values: parsed, rejected (`ValueError`) or overflowing (`OverflowError`). An accepted start date is kept as its text, not as a `datetime`. The clock is `None`.
- `generate_filename`: it needs `strftime` and `slugify`.
- The icons are named by what each emoji depicts, not by their code points.
- `Models.StravaUrl`: stated for integer ids. The source formats whatever `id` holds.
- `Models.TestSuiteActivity`: the object holds five of the test's fourteen keys, because the solver grows costly on larger map displays. The other nine keys are read by plain `dict.get`, as `Models.ActivityReadsPresentKeys` states.
- `exporter.py` and `cli.py` are not part of this model.

## Findings

| source | as written | input that shows it | evidently intended | confidence | as-written member | corrected member |
|---|---|---|---|---|---|---|
| src/strava_to_obsidian/config.py:46 | `Config.load(config_path)` reads the tokens from `.strava_tokens.json` next to the config file, but leaves `token_file` at the default, so `save_tokens` writes to `./.strava_tokens.json`. | `Config.load(Path("conf/settings.toml"))`, then `save_tokens("access", "refresh", 1000)`, then the same load again: the reloaded config has no tokens. Latent: the command line calls `Config.load()` without a path. | `token_file` is the file the tokens were read from. | not executed | `Config.LoadAsWrittenLosesSavedTokens` | `Config.SaveThenLoad` |
| src/strava_to_obsidian/api.py:165 | The short-page test compares with the caller's `per_page`, while the request asked for `min(per_page, 200)`. | `get_activities(per_page=500)` on an account with 300 activities: page 1 returns 200 (< 500) and the loop stops, so 100 activities are lost. Latent: the command line uses the default 200. | Compare with the page size that was sent. | not executed | `Pagination.AsWrittenLosesActivities` | `Pagination.HonestServer` |

=== FILE: auth.dfy ===
/**
 * The OAuth token lifecycle (`auth.py`): the expiry test, refreshing, the
 * one-shot redirect capture and the authorization-code flow. Every call to the
 * token endpoint is replaced by the reply it came back with, the clock by the
 * instant `now`, and the loopback listener by the one request it handled.
 */
module Auth {
  import opened Wrappers
  import opened Config
  import Text
  import UrlEncoding

  const AuthorizeUrl := "https://www.strava.com/oauth/authorize"
  const RedirectUri := "http://localhost:8080/callback"
  const Scope := "read,activity:read_all"

  /** Tokens count as expired this many seconds before `expires_at`. */
  const ExpiryBuffer := 300

  // ---------------------------------------------------------------------------
  // The token endpoint

  /** The grant a form posted to the token endpoint asks for. */
  datatype Grant = RefreshGrant(refreshToken: string) | CodeGrant(code: string)

  /** A form posted to the token endpoint. */
  datatype TokenRequest = TokenRequest(clientId: string, clientSecret: string, grant: Grant)

  /** The form fields of a token request, in the order the source lists them. */
  function FormFields(r: TokenRequest): (fields: seq<(string, string)>)
    ensures |fields| == 4 && fields[0] == ("client_id", r.clientId) && fields[1] == ("client_secret", r.clientSecret)
    ensures fields[3].0 == "grant_type" && (fields[3].1 == "authorization_code" <==> r.grant.CodeGrant?)
    ensures fields[2] == (if r.grant.CodeGrant? then ("code", r.grant.code) else ("refresh_token", r.grant.refreshToken))
  {
    match r.grant
    case RefreshGrant(token) =>
      [("client_id", r.clientId), ("client_secret", r.clientSecret),
       ("refresh_token", token), ("grant_type", "refresh_token")]
    case CodeGrant(code) =>
      [("client_id", r.clientId), ("client_secret", r.clientSecret),
       ("code", code), ("grant_type", "authorization_code")]
  }

  datatype Athlete = Athlete(id: Option<int>, firstname: Option<string>, lastname: Option<string>)

  /** A decoded token-endpoint body; an absent key is `None`. */
  datatype TokenBody = TokenBody(
    accessToken: Option<string>,
    refreshToken: Option<string>,
    expiresAt: Option<int>,
    athlete: Option<Athlete>)

  /**
   * What a POST to the token endpoint ended in. `RequestFailed` stands for every
   * `requests.RequestException`: a transport failure, a 4xx/5xx status caught by
   * `raise_for_status`, or a body that does not decode.
   */
  datatype TokenReply = RequestFailed | Received(body: TokenBody)

  /** The token triple of a body; the first missing key raises `KeyError`, named by `Err`. */
  function TokenTriple(body: TokenBody): (r: Result<(string, string, int), string>)
    ensures r.Ok? <==> body.accessToken.Some? && body.refreshToken.Some? && body.expiresAt.Some?
    ensures r.Ok? ==> r.value == (body.accessToken.value, body.refreshToken.value, body.expiresAt.value)
    ensures r.Err? ==> r.error in {"access_token", "refresh_token", "expires_at"}
    ensures r == Err("access_token") <==> body.accessToken.None?
    ensures r == Err("refresh_token") <==> body.accessToken.Some? && body.refreshToken.None?
    ensures r == Err("expires_at") ==> body.accessToken.Some? && body.refreshToken.Some? && body.expiresAt.None?
  {
    if body.accessToken.None? then Err("access_token")
    else if body.refreshToken.None? then Err("refresh_token")
    else if body.expiresAt.None? then Err("expires_at")
    else Ok((body.accessToken.value, body.refreshToken.value, body.expiresAt.value))
  }

  // ---------------------------------------------------------------------------
  // Expiry and refresh

  /** `is_token_expired`: strictly later than five minutes before `expires_at`. */
  predicate IsTokenExpired(c: StravaConfig, now: real) {
    now > (c.tokenExpiresAt - ExpiryBuffer) as real
  }

  /** The boundary instant `expires_at - 300` is still valid; any later instant is expired. */
  lemma ExpiryBoundary(c: StravaConfig, now: real, later: real)
    ensures !IsTokenExpired(c, (c.tokenExpiresAt - 300) as real)
    ensures IsTokenExpired(c, now) <==> now > (c.tokenExpiresAt - 300) as real
    ensures IsTokenExpired(c, now) && later >= now ==> IsTokenExpired(c, later)
  {
  }

  /** What one refresh or validity check did: its value or the raised key, the new session, the form it posted. */
  datatype RefreshTrace = RefreshTrace(result: Result<bool, string>, session: Session, posted: Option<TokenRequest>)

  /** `refresh_access_token`: posts the refresh grant and, on a complete reply, saves the new triple. */
  function RefreshAccessToken(s: Session, reply: TokenReply): RefreshTrace {
    var c := s.config.strava;
    if c.refreshToken == "" then
      RefreshTrace(Ok(false), s, None)
    else
      var posted := Some(TokenRequest(c.clientId, c.clientSecret, RefreshGrant(c.refreshToken)));
      match reply
      case RequestFailed => RefreshTrace(Ok(false), s, posted)
      case Received(body) =>
        match TokenTriple(body)
        case Err(key) => RefreshTrace(Err(key), s, posted)
        case Ok((a, r, e)) => RefreshTrace(Ok(true), SaveTokens(s, a, r, e), posted)
  }

  /**
   * The outcomes of `refresh_access_token`: nothing is posted without a
   * refresh token; otherwise the form carries the client credentials and the
   * refresh token. Only a received body holding all three token keys succeeds,
   * and then exactly that triple is saved; a missing key is raised; every
   * other outcome leaves the session as it was.
   */
  lemma RefreshAccessTokenOutcomes(s: Session, reply: TokenReply)
    ensures var t := RefreshAccessToken(s, reply);
      var c := s.config.strava;
      && (c.refreshToken == "" ==> t == RefreshTrace(Ok(false), s, None))
      && (c.refreshToken != "" ==> t.posted == Some(TokenRequest(c.clientId, c.clientSecret, RefreshGrant(c.refreshToken))))
      && (t.result != Ok(true) ==> t.session == s)
      && (reply.RequestFailed? ==> t.result == Ok(false))
      && (t.result.Err? ==> reply.Received? && TokenTriple(reply.body).Err? && t.result.error == TokenTriple(reply.body).error)
      && (c.refreshToken != "" && reply.Received? && TokenTriple(reply.body).Err? ==>
            t.result == Err(TokenTriple(reply.body).error))
      && (t.result == Ok(true) <==> c.refreshToken != "" && reply.Received? && TokenTriple(reply.body).Ok?)
      && (t.result == Ok(true) ==>
            var (a, r, e) := TokenTriple(reply.body).value;
            t.session == SaveTokens(s, a, r, e))
  {
    var t := RefreshAccessToken(s, reply);
    if t.result == Ok(true) {
      var (a, r, e) := TokenTriple(reply.body).value;
      assert t.session == SaveTokens(s, a, r, e);
    }
  }

  /** The form a refresh posts: the client credentials, the stored refresh token, grant type `refresh_token`. */
  lemma RefreshForm(s: Session, reply: TokenReply)
    requires s.config.strava.refreshToken != ""
    ensures var c := s.config.strava;
      var t := RefreshAccessToken(s, reply);
      && t.posted.Some?
      && FormFields(t.posted.value)
         == [("client_id", c.clientId), ("client_secret", c.clientSecret),
             ("refresh_token", c.refreshToken), ("grant_type", "refresh_token")]
  {
  }

  /**
   * `ensure_valid_token`: without tokens, false and no refresh; with unexpired
   * tokens, true and no refresh; otherwise exactly the outcome of one refresh.
   */
  function EnsureValidToken(s: Session, now: real, reply: TokenReply): RefreshTrace {
    if !HasTokens(s.config.strava) then RefreshTrace(Ok(false), s, None)
    else if IsTokenExpired(s.config.strava, now) then RefreshAccessToken(s, reply)
    else RefreshTrace(Ok(true), s, None)
  }

  /**
   * The three outcomes of `ensure_valid_token`: false without tokens, true
   * with unexpired ones, and otherwise the refresh's own outcome. A check that
   * posted a refresh and succeeded carries the new access token, never the old one.
   */
  lemma {:induction false} EnsureValidTokenOutcomes(s: Session, now: real, reply: TokenReply)
    ensures var t := EnsureValidToken(s, now, reply);
      && (!HasTokens(s.config.strava) ==> t == RefreshTrace(Ok(false), s, None))
      && (HasTokens(s.config.strava) && !IsTokenExpired(s.config.strava, now) ==> t == RefreshTrace(Ok(true), s, None))
      && (HasTokens(s.config.strava) && IsTokenExpired(s.config.strava, now) ==> t == RefreshAccessToken(s, reply))
      && (t.posted.Some? <==> HasTokens(s.config.strava) && IsTokenExpired(s.config.strava, now))
      && (t.posted.Some? ==> t.posted.value.grant == RefreshGrant(s.config.strava.refreshToken))
      && (t.result == Ok(true) ==> HasTokens(t.session.config.strava) || t.posted.Some?)
      && (t.posted.Some? && t.result == Ok(true) ==>
            t.session.config.strava.accessToken == reply.body.accessToken.value
            && t.session.config.strava.tokenExpiresAt == reply.body.expiresAt.value
            && t.session.disk[t.session.config.tokenFile]
               == Tokens(StoredTokens(reply.body.accessToken, reply.body.refreshToken, reply.body.expiresAt)))
      && (t.result != Ok(true) ==> t.session == s)
  {
    var t := EnsureValidToken(s, now, reply);
    if HasTokens(s.config.strava) && IsTokenExpired(s.config.strava, now) {
      assert t == RefreshAccessToken(s, reply);
      RefreshAccessTokenOutcomes(s, reply);
      if t.result == Ok(true) {
        var (a, r, e) := TokenTriple(reply.body).value;
        assert t.session == SaveTokens(s, a, r, e);
      }
    }
  }

  // ---------------------------------------------------------------------------
  // The redirect capture

  /** `parse_qs(query)`: every name present maps to a non-empty list of values. */
  type Query = map<string, seq<string>>

  predicate WellFormedQuery(q: Query) {
    forall name :: name in q ==> |q[name]| > 0
  }

  /** What the handler stored in `authorization_code` / `error`, if anything. */
  datatype Capture = NothingCaptured | CodeCaptured(code: string) | ErrorCaptured(message: string)

  /** The capture and the status line the browser receives. */
  datatype CallbackReply = CallbackReply(capture: Capture, status: int)

  const UnknownError := "Unknown error"

  /**
   * `AuthCallbackHandler.do_GET` on the parsed query of the request path. A
   * `code` wins even when `error` is present too.
   */
  function HandleCallback(q: Query): (r: CallbackReply)
    requires WellFormedQuery(q)
    ensures "code" in q ==> r == CallbackReply(CodeCaptured(q["code"][0]), 200)
    ensures "code" !in q && "error" in q ==>
      r == CallbackReply(ErrorCaptured(if "error_description" in q then q["error_description"][0] else UnknownError), 400)
    ensures "code" !in q && "error" !in q ==> r == CallbackReply(NothingCaptured, 404)
  {
    if "code" in q then
      CallbackReply(CodeCaptured(q["code"][0]), 200)
    else if "error" in q then
      var description := if "error_description" in q then q["error_description"] else [UnknownError];
      CallbackReply(ErrorCaptured(description[0]), 400)
    else
      CallbackReply(NothingCaptured, 404)
  }

  /** The status line tells the three captures apart: 200 for a code, 400 for an error, 404 otherwise. */
  lemma CallbackStatusMatchesCapture(q: Query)
    requires WellFormedQuery(q)
    ensures var r := HandleCallback(q);
      && (r.status == 200 <==> r.capture.CodeCaptured?)
      && (r.status == 400 <==> r.capture.ErrorCaptured?)
      && (r.status == 404 <==> r.capture.NothingCaptured?)
      && r.status in {200, 400, 404}
  {
  }

  /** The redirects a browser sends back on approval and on denial. */
  lemma CallbackExamples()
    ensures HandleCallback(map["code" := ["ABC123"], "scope" := ["read"]]).capture == CodeCaptured("ABC123")
    ensures HandleCallback(map["error" := ["access_denied"], "error_description" := ["User denied"]]).capture
         == ErrorCaptured("User denied")
    ensures HandleCallback(map["error" := ["access_denied"]]) == CallbackReply(ErrorCaptured("Unknown error"), 400)
    ensures HandleCallback(map["code" := ["ABC123"], "error" := ["access_denied"]]).capture == CodeCaptured("ABC123")
    ensures HandleCallback(map["state" := ["x"]]) == CallbackReply(NothingCaptured, 404)
  {
  }

  // ---------------------------------------------------------------------------
  // The authorization-code flow

  /** `get_authorization_url`. */
  function AuthorizationUrl(clientId: string): string {
    UrlWithQuery(AuthorizationParams(clientId))
  }

  /** The authorize endpoint with `query` url-encoded after the `?`. */
  function UrlWithQuery(query: seq<(string, string)>): string {
    AuthorizeUrl + "?" + UrlEncoding.Urlencode(query)
  }

  /** The query `get_authorization_url` encodes, in its insertion order. */
  function AuthorizationParams(clientId: string): seq<(string, string)> {
    [("client_id", clientId), ("redirect_uri", RedirectUri), ("response_type", "code"), ("scope", Scope)]
  }

  lemma AuthorizationParamsAscii(clientId: string)
    requires UrlEncoding.IsAscii(clientId)
    ensures var params := AuthorizationParams(clientId);
      forall i :: 0 <= i < |params| ==> UrlEncoding.IsAscii(params[i].0) && UrlEncoding.IsAscii(params[i].1)
  {
    assert UrlEncoding.IsAscii(RedirectUri);
    assert UrlEncoding.IsAscii(Scope);
  }

  /** The authorization URL carries exactly the client id, the loopback redirect, `code` and the scope. */
  lemma AuthorizationUrlCarries(clientId: string)
    requires UrlEncoding.IsAscii(clientId)
    ensures var url := AuthorizationUrl(clientId);
      var prefix := AuthorizeUrl + "?";
      && url[..|prefix|] == prefix
      && UrlEncoding.DecodeQuery(url[|prefix|..]) == Some([
           ("client_id", clientId),
           ("redirect_uri", "http://localhost:8080/callback"),
           ("response_type", "code"),
           ("scope", "read,activity:read_all")])
  {
    var params := AuthorizationParams(clientId);
    AuthorizationParamsAscii(clientId);
    UrlEncoding.DecodeUrlencode(params);
    var url := AuthorizationUrl(clientId);
    var prefix := AuthorizeUrl + "?";
    assert url[|prefix|..] == UrlEncoding.Urlencode(params);
  }

  /** `TokenResponse`. */
  datatype TokenResponse = TokenResponse(
    accessToken: string,
    refreshToken: string,
    expiresAt: int,
    athleteId: int,
    athleteName: string)

  /** `f"{firstname} {lastname}".strip()` with a missing athlete or name part read as "". */
  function AthleteName(athlete: Option<Athlete>): string {
    var a := athlete.GetOr(Athlete(None, None, None));
    Text.Strip(a.firstname.GetOr("") + " " + a.lastname.GetOr(""))
  }

  /** `athlete.get("id", 0)`. */
  function AthleteId(athlete: Option<Athlete>): int {
    athlete.GetOr(Athlete(None, None, None)).id.GetOr(0)
  }

  /** Both name parts present: they are joined by one space. */
  lemma AthleteNameFull(first: string, last: string)
    requires |first| > 0 && !Text.IsSpace(first[0])
    requires |last| > 0 && !Text.IsSpace(last[|last| - 1])
    ensures AthleteName(Some(Athlete(None, Some(first), Some(last)))) == first + " " + last
  {
    var full := first + " " + last;
    assert full[0] == first[0] && full[|full| - 1] == last[|last| - 1];
    Text.StripUnpadded(full);
  }

  /** Only the first name present: the trailing separator is stripped. */
  lemma AthleteNameFirstOnly(first: string)
    requires |first| > 0 && !Text.IsSpace(first[0]) && !Text.IsSpace(first[|first| - 1])
    ensures AthleteName(Some(Athlete(None, Some(first), None))) == first
  {
    var left := first + " " + "";
    assert left == first + " ";
    assert Text.TrimStart(left) == left;
    TrimEndSpaces(first, " ");
  }

  /** Only the last name present: the leading separator is stripped. */
  lemma AthleteNameLastOnly(last: string)
    requires |last| > 0 && !Text.IsSpace(last[0]) && !Text.IsSpace(last[|last| - 1])
    ensures AthleteName(Some(Athlete(None, None, Some(last)))) == last
  {
    var right := "" + " " + last;
    assert right[1..] == last;
    assert Text.TrimStart(right) == Text.TrimStart(last);
    Text.StripUnpadded(last);
  }

  /** No athlete object: an empty name and id 0. */
  lemma AthleteDefaults()
    ensures AthleteName(None) == "" && AthleteId(None) == 0
  {
    assert "" + " " + "" == " ";
    assert Text.TrimStart(" ") == "";
  }

  lemma TrimEndSpaces(s: string, spaces: string)
    requires |s| > 0 && !Text.IsSpace(s[|s| - 1])
    requires forall i :: 0 <= i < |spaces| ==> Text.IsSpace(spaces[i])
    ensures Text.TrimEnd(s + spaces) == s
    decreases |spaces|
  {
    if |spaces| > 0 {
      var t := s + spaces;
      assert t[..|t| - 1] == s + spaces[..|spaces| - 1];
      TrimEndSpaces(s, spaces[..|spaces| - 1]);
    } else {
      assert s + spaces == s;
    }
  }

  /** Why an authorization attempt ended without tokens. */
  datatype AuthFailure =
    | MissingCredentials          // ValueError before any listener starts
    | AuthorizationFailed(message: string)
    | AuthorizationTimedOut
    | ExchangeFailed              // a requests exception from the code exchange
    | MissingKey(key: string)     // KeyError on the exchange body

  /** `exchange_code_for_tokens` given the token endpoint's reply to the code grant. */
  function ExchangeCodeForTokens(reply: TokenReply): (r: Result<TokenResponse, AuthFailure>)
    ensures reply.RequestFailed? ==> r == Err(ExchangeFailed)
    ensures reply.Received? ==>
      match TokenTriple(reply.body)
      case Err(key) => r == Err(MissingKey(key))
      case Ok((a, rt, e)) => r == Ok(TokenResponse(a, rt, e, AthleteId(reply.body.athlete), AthleteName(reply.body.athlete)))
  {
    match reply
    case RequestFailed => Err(ExchangeFailed)
    case Received(body) =>
      match TokenTriple(body)
      case Err(key) => Err(MissingKey(key))
      case Ok((a, rt, e)) => Ok(TokenResponse(a, rt, e, AthleteId(body.athlete), AthleteName(body.athlete)))
  }

  /** The two class-level fields after the listener handled its one request, or none. */
  function Captured(callback: Option<Query>): (c: (Option<string>, Option<string>))
    requires callback.Some? ==> WellFormedQuery(callback.value)
  {
    if callback.None? then (None, None)
    else
      match HandleCallback(callback.value).capture
      case NothingCaptured => (None, None)
      case CodeCaptured(code) => (Some(code), None)
      case ErrorCaptured(message) => (None, Some(message))
  }

  /**
   * What one authorization attempt did: its result, the session after it, the
   * query of the URL opened in the browser (the URL is `UrlWithQuery` of it),
   * the form posted.
   */
  datatype AuthTrace = AuthTrace(
    result: Result<TokenResponse, AuthFailure>,
    session: Session,
    openedQuery: Option<seq<(string, string)>>,
    posted: Option<TokenRequest>)

  /**
   * `authenticate`, given the one redirect request the listener handled within
   * its wait (`None` when none came) and the token endpoint's reply.
   */
  function Authenticate(s: Session, callback: Option<Query>, reply: TokenReply): (t: AuthTrace)
    requires callback.Some? ==> WellFormedQuery(callback.value)
  {
    var c := s.config.strava;
    if !HasValidCredentials(c) then
      AuthTrace(Err(MissingCredentials), s, None, None)
    else
      var url := Some(AuthorizationParams(c.clientId));
      var (code, error) := Captured(callback);
      if error.Some? && error.value != "" then
        AuthTrace(Err(AuthorizationFailed(error.value)), s, url, None)
      else if code.None? || code.value == "" then
        AuthTrace(Err(AuthorizationTimedOut), s, url, None)
      else
        var posted := Some(TokenRequest(c.clientId, c.clientSecret, CodeGrant(code.value)));
        match ExchangeCodeForTokens(reply)
        case Err(f) => AuthTrace(Err(f), s, url, posted)
        case Ok(tokens) =>
          AuthTrace(Ok(tokens), SaveTokens(s, tokens.accessToken, tokens.refreshToken, tokens.expiresAt), url, posted)
  }

  /**
   * The outcome order of `authenticate`: missing credentials stop it before any
   * listener or browser; otherwise the authorization URL is opened; a failure
   * leaves the session as it was.
   */
  lemma AuthenticateOutcomes(s: Session, callback: Option<Query>, reply: TokenReply)
    requires callback.Some? ==> WellFormedQuery(callback.value)
    ensures var t := Authenticate(s, callback, reply);
      && (!HasValidCredentials(s.config.strava) ==> t == AuthTrace(Err(MissingCredentials), s, None, None))
      && (HasValidCredentials(s.config.strava) ==> t.openedQuery == Some(AuthorizationParams(s.config.strava.clientId)))
      && (t.result.Err? ==> t.session == s)
  {
  }

  /** A success comes from exchanging a posted code, and saves exactly the tokens it received. */
  lemma AuthenticateSuccess(s: Session, callback: Option<Query>, reply: TokenReply)
    requires callback.Some? ==> WellFormedQuery(callback.value)
    ensures var t := Authenticate(s, callback, reply);
      t.result.Ok? ==>
        && t.posted.Some? && t.posted.value.grant.CodeGrant?
        && t.session == SaveTokens(s, t.result.value.accessToken, t.result.value.refreshToken, t.result.value.expiresAt)
  {
  }

  /**
   * With credentials, what the listener captured decides the rest: no callback
   * or no capture is a timeout; a non-empty error is reported; only a non-empty
   * code is posted, and the result is then that of the exchange.
   */
  lemma {:induction false} AuthenticateFollowsCapture(s: Session, callback: Option<Query>, reply: TokenReply)
    requires callback.Some? ==> WellFormedQuery(callback.value)
    requires HasValidCredentials(s.config.strava)
    ensures var t := Authenticate(s, callback, reply);
      && (callback.None? ==> t.result == Err(AuthorizationTimedOut) && t.posted.None?)
      && (callback.Some? ==>
            match HandleCallback(callback.value).capture
            case NothingCaptured => t.result == Err(AuthorizationTimedOut) && t.posted.None?
            case ErrorCaptured(m) =>
              (m != "" ==> t.result == Err(AuthorizationFailed(m))) && t.posted.None?
            case CodeCaptured(code) =>
              code != "" ==>
                && t.posted == Some(TokenRequest(s.config.strava.clientId, s.config.strava.clientSecret, CodeGrant(code)))
                && t.result == ExchangeCodeForTokens(reply))
  {
    if callback.Some? {
      match HandleCallback(callback.value).capture
      case NothingCaptured => assert Captured(callback) == (None, None);
      case CodeCaptured(code) => assert Captured(callback) == (Some(code), None);
      case ErrorCaptured(m) => assert Captured(callback) == (None, Some(m));
    }
  }

  /** A redirect carrying `code=ABC123` leads to posting exactly that code. */
  lemma AuthenticateWithCode(s: Session, reply: TokenReply)
    requires HasValidCredentials(s.config.strava)
    ensures Authenticate(s, Some(map["code" := ["ABC123"]]), reply).posted
         == Some(TokenRequest(s.config.strava.clientId, s.config.strava.clientSecret, CodeGrant("ABC123")))
    ensures FormFields(Authenticate(s, Some(map["code" := ["ABC123"]]), reply).posted.value)
         == [("client_id", s.config.strava.clientId), ("client_secret", s.config.strava.clientSecret),
             ("code", "ABC123"), ("grant_type", "authorization_code")]
  {
    var q := map["code" := ["ABC123"]];
    assert "code" in q && q["code"][0] == "ABC123";
    assert Captured(Some(q)) == (Some("ABC123"), None);
  }
}

=== FILE: config.dfy ===
/**
 * Credentials and OAuth tokens (`config.py`). Client id and secret come from
 * the environment only; the token triple is read from and written through to
 * a token file, modelled as an entry of an abstract disk.
 */
module Config {
  import opened Wrappers

  /** `StravaConfig`: the credentials and the token triple held in memory. */
  datatype StravaConfig = StravaConfig(
    clientId: string,
    clientSecret: string,
    accessToken: string,
    refreshToken: string,
    tokenExpiresAt: int)

  /** The dataclass defaults. */
  const DefaultStrava := StravaConfig("", "", "", "", 0)

  /** A file-system path as its components; `[]` is the working directory. */
  type Path = seq<string>

  const TokenFileName := ".strava_tokens.json"

  /** `Path(".strava_tokens.json")`, relative to the working directory. */
  const DefaultTokenFile: Path := [TokenFileName]

  /** `Path.parent`; the parent of the working directory is itself. */
  function Parent(p: Path): Path {
    if |p| == 0 then [] else p[..|p| - 1]
  }

  /** A decoded token file: each of its three keys may be absent. */
  datatype StoredTokens = StoredTokens(
    accessToken: Option<string>,
    refreshToken: Option<string>,
    expiresAt: Option<int>)

  /** An existing file: either it decodes to a token record or opening/decoding fails. */
  datatype FileContent = Unreadable | Tokens(tokens: StoredTokens)

  /** The files that exist; a path outside the domain does not exist. */
  type Disk = map<Path, FileContent>

  /** `Config`: the in-memory settings and the token file `save_tokens` writes. */
  datatype Config = Config(strava: StravaConfig, tokenFile: Path)

  /** A `Config` together with the disk it writes through to. */
  datatype Session = Session(config: Config, disk: Disk)

  /** The process environment (after `.env` has been merged into it). */
  type Environment = map<string, string>

  const ClientIdVariable := "STRAVA_CLIENT_ID"
  const ClientSecretVariable := "STRAVA_CLIENT_SECRET"

  /** `os.environ.get(name, "")`. */
  function EnvGet(env: Environment, name: string): string {
    if name in env then env[name] else ""
  }

  /** `bool(client_id and client_secret)`. */
  predicate HasValidCredentials(c: StravaConfig) {
    c.clientId != "" && c.clientSecret != ""
  }

  /** `bool(access_token and refresh_token)`; the expiry plays no part. */
  predicate HasTokens(c: StravaConfig) {
    c.accessToken != "" && c.refreshToken != ""
  }

  /** The expiry instant is irrelevant to whether tokens are present. */
  lemma HasTokensIgnoresExpiry(c: StravaConfig, expiresAt: int)
    ensures HasTokens(c.(tokenExpiresAt := expiresAt)) <==> HasTokens(c)
  {
  }

  /** The file `Config.load` reads: next to the config file when one is given. */
  function TokenFileFor(configPath: Option<Path>): Path {
    match configPath
    case Some(p) => Parent(p) + [TokenFileName]
    case None => DefaultTokenFile
  }

  /**
   * The token part of `Config.load` applied to `strava`: a missing or unreadable
   * file changes nothing, otherwise each key is read on its own with its default.
   */
  function ReadTokens(strava: StravaConfig, disk: Disk, path: Path): (r: StravaConfig)
    ensures r.clientId == strava.clientId && r.clientSecret == strava.clientSecret
    ensures (path !in disk || disk[path].Unreadable?) ==> r == strava
    ensures path in disk && disk[path].Tokens? ==>
      var t := disk[path].tokens;
      && r.accessToken == (if t.accessToken.Some? then t.accessToken.value else "")
      && r.refreshToken == (if t.refreshToken.Some? then t.refreshToken.value else "")
      && r.tokenExpiresAt == (if t.expiresAt.Some? then t.expiresAt.value else 0)
  {
    if path in disk && disk[path].Tokens? then
      var t := disk[path].tokens;
      strava.(
        accessToken := t.accessToken.GetOr(""),
        refreshToken := t.refreshToken.GetOr(""),
        tokenExpiresAt := t.expiresAt.GetOr(0))
    else
      strava
  }

  /** The credentials `Config.load` takes from the environment, over the defaults. */
  function FromEnvironment(env: Environment): (c: StravaConfig)
    ensures c.clientId == EnvGet(env, ClientIdVariable)
    ensures c.clientSecret == EnvGet(env, ClientSecretVariable)
    ensures !HasTokens(c) && c.tokenExpiresAt == 0
  {
    DefaultStrava.(
      clientId := EnvGet(env, ClientIdVariable),
      clientSecret := EnvGet(env, ClientSecretVariable))
  }

  /**
   * `Config.load` as written: it reads the token file next to `configPath`
   * but leaves `token_file` at its default, so `save_tokens` writes elsewhere.
   */
  function LoadAsWritten(env: Environment, disk: Disk, configPath: Option<Path>): (s: Session)
    ensures s.disk == disk && s.config.tokenFile == DefaultTokenFile
    ensures s.config.strava == ReadTokens(FromEnvironment(env), disk, TokenFileFor(configPath))
  {
    Session(Config(ReadTokens(FromEnvironment(env), disk, TokenFileFor(configPath)), DefaultTokenFile), disk)
  }

  /** `Config.load` with `token_file` set to the file it read the tokens from. */
  function Load(env: Environment, disk: Disk, configPath: Option<Path>): (s: Session)
    ensures s.disk == disk && s.config.tokenFile == TokenFileFor(configPath)
    ensures s.config.strava == ReadTokens(FromEnvironment(env), disk, s.config.tokenFile)
  {
    var path := TokenFileFor(configPath);
    Session(Config(ReadTokens(FromEnvironment(env), disk, path), path), disk)
  }

  /** Without a config path, as the command line calls it, both loads agree. */
  lemma LoadAgreesWithoutConfigPath(env: Environment, disk: Disk)
    ensures LoadAsWritten(env, disk, None) == Load(env, disk, None)
  {
  }

  /**
   * `save_tokens`: replaces exactly the three token fields in memory and writes
   * exactly that triple, and nothing else, to the configured token file.
   */
  function SaveTokens(s: Session, accessToken: string, refreshToken: string, expiresAt: int): (r: Session)
    ensures r.config.tokenFile == s.config.tokenFile
    ensures r.config.strava.clientId == s.config.strava.clientId
    ensures r.config.strava.clientSecret == s.config.strava.clientSecret
    ensures r.config.strava.accessToken == accessToken
    ensures r.config.strava.refreshToken == refreshToken
    ensures r.config.strava.tokenExpiresAt == expiresAt
    ensures r.disk.Keys == s.disk.Keys + {s.config.tokenFile}
    ensures forall p :: p in s.disk && p != s.config.tokenFile ==> r.disk[p] == s.disk[p]
    ensures r.disk[s.config.tokenFile] == Tokens(StoredTokens(Some(accessToken), Some(refreshToken), Some(expiresAt)))
  {
    var strava := s.config.strava.(
      accessToken := accessToken,
      refreshToken := refreshToken,
      tokenExpiresAt := expiresAt);
    var stored := StoredTokens(Some(accessToken), Some(refreshToken), Some(expiresAt));
    Session(Config(strava, s.config.tokenFile), s.disk[s.config.tokenFile := Tokens(stored)])
  }

  /** Without a readable token file the loaded config has the defaults and no tokens. */
  lemma LoadWithoutTokenFile(env: Environment, disk: Disk, configPath: Option<Path>)
    requires TokenFileFor(configPath) !in disk || disk[TokenFileFor(configPath)].Unreadable?
    ensures var c := Load(env, disk, configPath).config.strava;
      && c.accessToken == "" && c.refreshToken == "" && c.tokenExpiresAt == 0
      && !HasTokens(c)
  {
  }

  /** Credentials are valid after loading iff both variables are set to non-empty values. */
  lemma LoadCredentials(env: Environment, disk: Disk, configPath: Option<Path>)
    ensures var c := Load(env, disk, configPath).config.strava;
      && c.clientId == EnvGet(env, ClientIdVariable)
      && c.clientSecret == EnvGet(env, ClientSecretVariable)
      && (HasValidCredentials(c) <==>
            ClientIdVariable in env && env[ClientIdVariable] != "" &&
            ClientSecretVariable in env && env[ClientSecretVariable] != "")
  {
  }

  /** Round trip: loading again after `save_tokens` yields exactly the in-memory config. */
  lemma SaveThenLoad(env: Environment, disk: Disk, configPath: Option<Path>,
                     accessToken: string, refreshToken: string, expiresAt: int)
    ensures var saved := SaveTokens(Load(env, disk, configPath), accessToken, refreshToken, expiresAt);
      var reloaded := Load(env, saved.disk, configPath);
      && reloaded.config == saved.config
      && reloaded.config.strava.accessToken == accessToken
      && reloaded.config.strava.refreshToken == refreshToken
      && reloaded.config.strava.tokenExpiresAt == expiresAt
  {
  }

  /** Round trip for any session whose config came from the same environment. */
  lemma SaveThenLoadSession(env: Environment, s: Session, configPath: Option<Path>,
                            accessToken: string, refreshToken: string, expiresAt: int)
    requires s.config.tokenFile == TokenFileFor(configPath)
    requires s.config.strava.clientId == EnvGet(env, ClientIdVariable)
    requires s.config.strava.clientSecret == EnvGet(env, ClientSecretVariable)
    ensures Load(env, SaveTokens(s, accessToken, refreshToken, expiresAt).disk, configPath).config
         == SaveTokens(s, accessToken, refreshToken, expiresAt).config
  {
  }

  /** With a config path in another directory, the as-written load does not see the tokens just saved. */
  lemma LoadAsWrittenLosesSavedTokens()
    ensures var configPath := Some(["conf", "settings.toml"]);
      var saved := SaveTokens(LoadAsWritten(map[], map[], configPath), "access", "refresh", 1000);
      var reloaded := LoadAsWritten(map[], saved.disk, configPath);
      && saved.config.strava.accessToken == "access"
      && reloaded.config.strava.accessToken == ""
      && !HasTokens(reloaded.config.strava)
  {
    var configPath := Some(["conf", "settings.toml"]);
    assert TokenFileFor(configPath) == ["conf", TokenFileName];
    assert TokenFileFor(configPath) != DefaultTokenFile;
  }
}

=== FILE: json.dfy ===
/**
 * Decoded JSON as the Python program sees it after `response.json()`: every
 * object is a `dict`, every array a `list`. Only the dict lookups and the
 * truthiness tests the program performs are defined here.
 */
module Json {

  datatype Json =
    | JNull
    | JBool(b: bool)
    | JInt(i: int)
    | JNum(r: real)
    | JStr(s: string)
    | JArr(items: seq<Json>)
    | JObj(fields: map<string, Json>)

  type Dict = map<string, Json>

  /** `d.get(key)`: a missing key and a JSON null both read as `None` (`JNull`). */
  function Get(d: Dict, key: string): Json {
    if key in d then d[key] else JNull
  }

  /** `d.get(key, default)`: the default applies only when the key is missing. */
  function GetOr(d: Dict, key: string, default: Json): Json {
    if key in d then d[key] else default
  }

  /** Python's `bool(v)`: `None`, `False`, zero, and empty strings, lists and dicts are false. */
  predicate Truthy(v: Json) {
    match v
    case JNull => false
    case JBool(b) => b
    case JInt(i) => i != 0
    case JNum(r) => r != 0.0
    case JStr(s) => |s| > 0
    case JArr(items) => |items| > 0
    case JObj(fields) => |fields| > 0
  }
}

=== FILE: models.dfy ===
/**
 * The pure helpers of the activity data model (`models.py`): duration
 * formatting, the sport icon table, the run-or-walk test, the activity URL,
 * and the way `Activity.from_api_response` and `Lap.from_api_response` read
 * a decoded API object, with Python's failures on ill-shaped input.
 */
module Models {
  import opened Wrappers
  import Text
  import opened Json

  // ---------------------------------------------------------------------------
  // format_duration

  /**
   * `format_duration(seconds)`: `divmod` by 3600 then by 60 (floor division,
   * which is Dafny's for a positive divisor); `H:MM:SS` when the hours are
   * positive, otherwise `M:SS`.
   */
  function FormatDuration(seconds: int): (s: string)
    ensures |s| >= 4
  {
    var hours := seconds / 3600;
    var remainder := seconds % 3600;
    var minutes := remainder / 60;
    var secs := remainder % 60;
    if hours > 0 then Text.IntToString(hours) + ":" + Text.ZeroPad2(minutes) + ":" + Text.ZeroPad2(secs)
    else Text.IntToString(minutes) + ":" + Text.ZeroPad2(secs)
  }

  /** A field of exactly two digits below 60, as the minutes and seconds of a duration are written. */
  predicate IsSexagesimalField(p: string) {
    |p| == 2 && Text.AllDigits(p) && Text.DigitsValue(p) < 60
  }

  /**
   * Reads `H:MM:SS` or `M:SS` back as a number of seconds; anything else is
   * `None`, including a first field with a leading zero, which
   * `format_duration` never writes.
   */
  function DurationValue(text: string): Option<int> {
    var parts := Text.Split(text, ':');
    if |parts| == 2 && Text.IsNumeral(parts[0]) && IsSexagesimalField(parts[1]) then
      Some(60 * Text.DigitsValue(parts[0]) + Text.DigitsValue(parts[1]))
    else if |parts| == 3 && Text.IsNumeral(parts[0])
         && IsSexagesimalField(parts[1]) && IsSexagesimalField(parts[2]) then
      Some(3600 * Text.DigitsValue(parts[0]) + 60 * Text.DigitsValue(parts[1]) + Text.DigitsValue(parts[2]))
    else None
  }

  lemma ZeroPad2Short(n: nat)
    requires n < 100
    ensures |Text.ZeroPad2(n)| == 2
  {
    if n >= 10 {
      assert Text.NatToString(n / 10) == [Text.DigitChar(n / 10)];
    }
  }

  lemma SexagesimalField(n: nat)
    requires n < 60
    ensures IsSexagesimalField(Text.ZeroPad2(n)) && Text.DigitsValue(Text.ZeroPad2(n)) == n
  {
    ZeroPad2Short(n);
    Text.ZeroPad2Value(n);
  }

  lemma NoColonInDigits(s: string)
    requires Text.AllDigits(s)
    ensures ':' !in s
  {
  }

  /** The decomposition `format_duration` prints: whole hours, then minutes and seconds below 60. */
  lemma DurationDecomposition(seconds: int)
    requires seconds >= 0
    ensures var h, m, s := seconds / 3600, (seconds % 3600) / 60, (seconds % 3600) % 60;
      seconds == 3600 * h + 60 * m + s && h >= 0 && 0 <= m < 60 && 0 <= s < 60
  {
  }

  lemma JoinTwo(a: string, b: string)
    ensures Text.Join([a, b], ':') == a + ":" + b
  {
  }

  lemma JoinThree(a: string, b: string, c: string)
    ensures Text.Join([a, b, c], ':') == a + ":" + b + ":" + c
  {
    assert [a, b, c][1..] == [b, c];
    JoinTwo(b, c);
  }

  /** The `H:MM:SS` form reads back as the hours, minutes and seconds it was written from. */
  lemma {:induction false} LongDurationReadsBack(h: nat, m: nat, s: nat)
    requires h > 0 && m < 60 && s < 60
    ensures var text := Text.NatToString(h) + ":" + Text.ZeroPad2(m) + ":" + Text.ZeroPad2(s);
      |Text.Split(text, ':')| == 3 && DurationValue(text) == Some(3600 * h + 60 * m + s)
  {
    var hh, mm, ss := Text.NatToString(h), Text.ZeroPad2(m), Text.ZeroPad2(s);
    SexagesimalField(m);
    SexagesimalField(s);
    NoColonInDigits(hh);
    NoColonInDigits(mm);
    NoColonInDigits(ss);
    Text.NatToStringRoundTrip(h);
    Text.NatToStringIsNumeral(h);
    JoinThree(hh, mm, ss);
    Text.SplitJoin([hh, mm, ss], ':');
  }

  /** The `M:SS` form reads back as the minutes and seconds it was written from. */
  lemma {:induction false} ShortDurationReadsBack(m: nat, s: nat)
    requires s < 60
    ensures var text := Text.NatToString(m) + ":" + Text.ZeroPad2(s);
      |Text.Split(text, ':')| == 2 && DurationValue(text) == Some(60 * m + s)
  {
    var mm, ss := Text.NatToString(m), Text.ZeroPad2(s);
    SexagesimalField(s);
    NoColonInDigits(mm);
    NoColonInDigits(ss);
    Text.NatToStringRoundTrip(m);
    Text.NatToStringIsNumeral(m);
    JoinTwo(mm, ss);
    Text.SplitJoin([mm, ss], ':');
  }

  /**
   * Round trip: for a non-negative number of seconds the text reads back as
   * that number, with three fields exactly when it is an hour or more. The
   * seconds are always two digits, and so are the minutes in `H:MM:SS`; the
   * minutes of `M:SS` and the hours are unpadded.
   */
  lemma {:induction false} DurationRoundTrip(seconds: int)
    requires seconds >= 0
    ensures DurationValue(FormatDuration(seconds)) == Some(seconds)
    ensures |Text.Split(FormatDuration(seconds), ':')| == (if seconds >= 3600 then 3 else 2)
  {
    DurationDecomposition(seconds);
    var hours := seconds / 3600;
    var minutes := (seconds % 3600) / 60;
    var secs := (seconds % 3600) % 60;
    FormatDurationUnfolded(seconds);
    if hours > 0 {
      LongDurationReadsBack(hours, minutes, secs);
    } else {
      ShortDurationReadsBack(minutes, secs);
    }
  }

  /**
   * Unfolding step for `DurationRoundTrip`: for a non-negative duration the
   * `str()` of each field is its unsigned decimal form.
   */
  lemma FormatDurationUnfolded(seconds: int)
    requires seconds >= 0
    ensures var h, m, s := seconds / 3600, (seconds % 3600) / 60, (seconds % 3600) % 60;
      FormatDuration(seconds)
      == if h > 0 then Text.NatToString(h) + ":" + Text.ZeroPad2(m) + ":" + Text.ZeroPad2(s)
         else Text.NatToString(m) + ":" + Text.ZeroPad2(s)
  {
  }

  /** A negative duration keeps only its floored remainder within the hour, so the hours vanish. */
  lemma NegativeDurationDropsHours(seconds: int)
    requires seconds < 0
    ensures FormatDuration(seconds) == FormatDuration(seconds % 3600)
    ensures |Text.Split(FormatDuration(seconds), ':')| == 2
  {
    var r := seconds % 3600;
    assert seconds / 3600 < 0;
    assert r / 3600 == 0 && r % 3600 == r;
    assert FormatDuration(seconds) == FormatDuration(r);
    DurationRoundTrip(r);
  }

  /** A case under an hour that the test suite lists. */
  lemma MinuteDurationExample()
    ensures FormatDuration(90) == "1:30"
  {
    assert Text.NatToString(1) == "1";
    assert Text.ZeroPad2(30) == "30" by { assert Text.NatToString(3) == "3"; }
  }

  /** The longest duration under an hour, as the test suite lists it. */
  lemma LastMinuteDurationExample()
    ensures FormatDuration(3599) == "59:59"
  {
    assert Text.NatToString(59) == "59" by { assert Text.NatToString(5) == "5"; }
  }

  /** The whole-hour case the test suite lists. */
  lemma HourDurationExample()
    ensures FormatDuration(3600) == "1:00:00"
  {
    assert Text.NatToString(1) == "1";
    assert Text.ZeroPad2(0) == "00";
  }

  /** A case just over an hour that the test suite lists. */
  lemma HoursDurationExample()
    ensures FormatDuration(3661) == "1:01:01"
  {
    assert Text.NatToString(1) == "1";
    assert Text.ZeroPad2(1) == "01";
  }

  /** A case over two hours that the test suite lists. */
  lemma TwoHoursDurationExample()
    ensures FormatDuration(7325) == "2:02:05"
  {
    assert Text.NatToString(2) == "2";
    assert Text.ZeroPad2(2) == "02";
    assert Text.ZeroPad2(5) == "05";
  }

  // ---------------------------------------------------------------------------
  // Sport icons

  /** The emoji `SPORT_ICONS` maps to, named by what they depict. */
  datatype Icon =
    | Runner | Cyclist | MountainBiker | Bicycle | Swimmer | Walker | HikingBoot
    | FlexedBiceps | WeightLifter | Lotus | Ladder | Rowboat | Canoe | Skier | Skis
    | Snowboarder | IceSkate | FlagInHole | SoccerBall | TennisBall | PingPong
    | Climber | Surfer | Skateboard | RollerSkate | Sailboat
    | SportsMedal

  /** `SPORT_ICONS`: the 39 sport types with an icon of their own, and `None` for any other. */
  function TableIcon(sportType: string): Option<Icon> {
    match sportType
    case "Run" => Some(Runner)
    case "TrailRun" => Some(Runner)
    case "VirtualRun" => Some(Runner)
    case "Ride" => Some(Cyclist)
    case "GravelRide" => Some(Cyclist)
    case "MountainBikeRide" => Some(MountainBiker)
    case "EBikeRide" => Some(Bicycle)
    case "EMountainBikeRide" => Some(MountainBiker)
    case "VirtualRide" => Some(Cyclist)
    case "Swim" => Some(Swimmer)
    case "Walk" => Some(Walker)
    case "Hike" => Some(HikingBoot)
    case "Workout" => Some(FlexedBiceps)
    case "WeightTraining" => Some(WeightLifter)
    case "Yoga" => Some(Lotus)
    case "Crossfit" => Some(WeightLifter)
    case "Elliptical" => Some(Runner)
    case "StairStepper" => Some(Ladder)
    case "Rowing" => Some(Rowboat)
    case "VirtualRow" => Some(Rowboat)
    case "Kayaking" => Some(Canoe)
    case "Canoeing" => Some(Canoe)
    case "AlpineSki" => Some(Skier)
    case "BackcountrySki" => Some(Skier)
    case "NordicSki" => Some(Skis)
    case "Snowboard" => Some(Snowboarder)
    case "IceSkate" => Some(IceSkate)
    case "Golf" => Some(FlagInHole)
    case "Soccer" => Some(SoccerBall)
    case "Tennis" => Some(TennisBall)
    case "Pickleball" => Some(PingPong)
    case "RockClimbing" => Some(Climber)
    case "Surfing" => Some(Surfer)
    case "Windsurf" => Some(Surfer)
    case "Kitesurf" => Some(Surfer)
    case "StandUpPaddling" => Some(Surfer)
    case "Skateboard" => Some(Skateboard)
    case "InlineSkate" => Some(RollerSkate)
    case "Sail" => Some(Sailboat)
    case _ => None
  }

  /** The icon for a sport type missing from the table. */
  const DefaultIcon := SportsMedal

  /** `get_sport_icon`: the table's icon, or the medal for any other sport type. */
  function GetSportIcon(sportType: string): (icon: Icon)
    ensures TableIcon(sportType).Some? ==> icon == TableIcon(sportType).value
    ensures TableIcon(sportType).None? ==> icon == DefaultIcon
  {
    TableIcon(sportType).GetOr(DefaultIcon)
  }

  /** The medal marks exactly the sport types the table does not know: no table entry uses it. */
  lemma MedalMeansUnknown(sportType: string)
    ensures GetSportIcon(sportType) == DefaultIcon <==> TableIcon(sportType).None?
  {
  }

  /** The table entries the test suite checks. */
  lemma IconExamples()
    ensures GetSportIcon("Run") == Runner
    ensures GetSportIcon("Ride") == Cyclist
    ensures GetSportIcon("Swim") == Swimmer
  {
  }

  /** A sport type the table lacks gets the medal, as the test suite checks. */
  lemma UnknownSportIcon()
    ensures GetSportIcon("UnknownSport") == SportsMedal
  {
  }

  /** The Python exceptions reading an API object can raise. */
  datatype PyError = AttributeError | TypeError | ValueError | OverflowError | KeyError(key: string)

  /**
   * What `dateutil.parser.parse` does with a string: it returns a date, raises
   * `ValueError` (its `ParserError`) for text it cannot read, or raises
   * `OverflowError` when a parsed field exceeds the largest C integer.
   */
  datatype DateVerdict = Parsed | Rejected | Overflows

  /** A value `dict.get` or `in` on a set can hash: lists and dicts cannot. */
  predicate Hashable(v: Json) {
    !v.JArr? && !v.JObj?
  }

  /** `Activity.icon`: the lookup on whatever `sport_type` holds; a list or dict raises `TypeError`. */
  function ActivityIcon(sportType: Json): (r: Result<Icon, PyError>)
    ensures r.Err? <==> !Hashable(sportType)
    ensures r.Err? ==> r.error == TypeError
    ensures r.Ok? && sportType.JStr? ==> r.value == GetSportIcon(sportType.s)
    ensures r.Ok? && !sportType.JStr? ==> r.value == DefaultIcon
  {
    match sportType
    case JStr(s) => Ok(GetSportIcon(s))
    case JArr(_) => Err(TypeError)
    case JObj(_) => Err(TypeError)
    case _ => Ok(DefaultIcon)
  }

  /** The medal is exactly what a hashable `sport_type` that is not a table key gets. */
  lemma ActivityIconDefault(sportType: Json)
    ensures ActivityIcon(sportType) == Ok(DefaultIcon) <==>
      Hashable(sportType) && !(sportType.JStr? && TableIcon(sportType.s).Some?)
  {
    if sportType.JStr? {
      MedalMeansUnknown(sportType.s);
    }
  }

  // ---------------------------------------------------------------------------
  // is_run_or_walk and strava_url

  /** The sport types that get a pace display. */
  const RunOrWalkTypes: set<string> := {"Run", "TrailRun", "VirtualRun", "Walk", "Hike"}

  /** `Activity.is_run_or_walk`: membership of `sport_type` in the set; a list or dict raises `TypeError`. */
  function IsRunOrWalk(sportType: Json): (r: Result<bool, PyError>)
    ensures r.Err? <==> !Hashable(sportType)
    ensures r == Ok(true) <==> sportType.JStr? && sportType.s in RunOrWalkTypes
  {
    if !Hashable(sportType) then Err(TypeError)
    else Ok(sportType.JStr? && sportType.s in RunOrWalkTypes)
  }

  /**
   * Every run-or-walk type has a runner, walker or boot icon; the converse
   * fails for the elliptical, which shares the runner.
   */
  lemma RunOrWalkIcons(sportType: string)
    ensures IsRunOrWalk(JStr(sportType)) == Ok(true) ==> GetSportIcon(sportType) in {Runner, Walker, HikingBoot}
    ensures GetSportIcon("Elliptical") == Runner && IsRunOrWalk(JStr("Elliptical")) == Ok(false)
  {
    assert "Elliptical" !in RunOrWalkTypes;
  }

  const ActivityUrlPrefix := "https://www.strava.com/activities/"

  /** `Activity.strava_url` for an integer id: the prefix, then the id in decimal. */
  function StravaUrl(id: int): (url: string)
    ensures |url| > |ActivityUrlPrefix| && url[..|ActivityUrlPrefix|] == ActivityUrlPrefix
  {
    ActivityUrlPrefix + Text.IntToString(id)
  }

  /** The id reads back from the URL's last path segment, so distinct ids give distinct URLs. */
  lemma StravaUrlCarriesId(id: int)
    ensures Text.ParseInt(StravaUrl(id)[|ActivityUrlPrefix|..]) == Some(id)
  {
    assert StravaUrl(id)[|ActivityUrlPrefix|..] == Text.IntToString(id);
    Text.IntRoundTrip(id);
  }

  lemma StravaUrlInjective(a: int, b: int)
    ensures StravaUrl(a) == StravaUrl(b) ==> a == b
  {
    StravaUrlCarriesId(a);
    StravaUrlCarriesId(b);
  }

  // ---------------------------------------------------------------------------
  // Lap.from_api_response and Activity.from_api_response

  /** `Lap`: each field holds whatever the API object held, or the default. */
  datatype Lap = Lap(
    lapIndex: Json,
    distance: Json,
    elapsedTime: Json,
    averageSpeed: Json,
    averageHeartrate: Json,
    totalElevationGain: Json)

  /** `Lap.from_api_response`: every key read with `dict.get` and its default. */
  function LapFromApiResponse(data: Dict): (lap: Lap)
    ensures "lap_index" !in data ==> lap.lapIndex == JInt(1)
    ensures "lap_index" in data ==> lap.lapIndex == data["lap_index"]
    ensures "distance" !in data ==> lap.distance == JNum(0.0)
    ensures "elapsed_time" !in data ==> lap.elapsedTime == JInt(0)
    ensures "average_speed" !in data ==> lap.averageSpeed == JNum(0.0)
    ensures "total_elevation_gain" !in data ==> lap.totalElevationGain == JNum(0.0)
    ensures lap.averageHeartrate == Get(data, "average_heartrate")
  {
    Lap(
      GetOr(data, "lap_index", JInt(1)),
      GetOr(data, "distance", JNum(0.0)),
      GetOr(data, "elapsed_time", JInt(0)),
      GetOr(data, "average_speed", JNum(0.0)),
      Get(data, "average_heartrate"),
      GetOr(data, "total_elevation_gain", JNum(0.0)))
  }

  /** The values a lap object reads as, key by key, when all are present. */
  lemma LapReadsPresentKeys(data: Dict)
    requires forall k :: k in {"lap_index", "distance", "elapsed_time", "average_speed", "average_heartrate", "total_elevation_gain"} ==> k in data
    ensures LapFromApiResponse(data) == Lap(data["lap_index"], data["distance"], data["elapsed_time"],
                                            data["average_speed"], data["average_heartrate"], data["total_elevation_gain"])
  {
  }

  /** A lap as the API sends it: one key per field. */
  function LapObject(lap: Lap): Dict {
    map[
      "lap_index" := lap.lapIndex, "distance" := lap.distance, "elapsed_time" := lap.elapsedTime,
      "average_speed" := lap.averageSpeed, "average_heartrate" := lap.averageHeartrate,
      "total_elevation_gain" := lap.totalElevationGain]
  }

  /** Round trip: a lap reads back from the object it renders to. */
  lemma LapRoundTrip(lap: Lap)
    ensures LapFromApiResponse(LapObject(lap)) == lap
  {
    LapReadsPresentKeys(LapObject(lap));
  }

  /** A lap list as the API sends it. */
  function LapObjects(laps: seq<Lap>): (items: seq<Json>)
    ensures |items| == |laps| && forall i :: 0 <= i < |laps| ==> items[i] == JObj(LapObject(laps[i]))
  {
    seq(|laps|, i requires 0 <= i < |laps| => JObj(LapObject(laps[i])))
  }

  /** Round trip: a rendered lap list reads back as the same laps, in order. */
  lemma LapsRoundTrip(laps: seq<Lap>)
    ensures LapsOf(JArr(LapObjects(laps))) == Ok(laps)
  {
    var items := LapObjects(laps);
    var r := LapsOf(JArr(items));
    assert forall i :: 0 <= i < |items| ==> items[i].JObj?;
    assert r.Ok? && |r.value| == |laps|;
    forall i | 0 <= i < |laps|
      ensures r.value[i] == laps[i]
    {
      assert r.value[i] == LapFromApiResponse(items[i].fields);
      LapRoundTrip(laps[i]);
    }
    assert r.value == laps;
  }

  /**
   * `Activity`; `startDate` is the text the date parser accepted, or `None`
   * where the source takes `datetime.now()`. `raw` is the object it was read from.
   */
  datatype Activity = Activity(
    id: Json,
    startDate: Option<string>,
    name: Json,
    sportType: Json,
    description: Json,
    elapsedTime: Json,
    movingTime: Json,
    distance: Json,
    averageSpeed: Json,
    maxSpeed: Json,
    totalElevationGain: Json,
    averageHeartrate: Json,
    maxHeartrate: Json,
    calories: Json,
    startLatlng: Json,
    photoUrl: Json,
    laps: seq<Lap>,
    raw: Dict)

  /** Python's `v > 0` for a JSON value: numbers and booleans compare, anything else raises `TypeError`. */
  function Positive(v: Json): Result<bool, PyError> {
    match v
    case JInt(i) => Ok(i > 0)
    case JNum(r) => Ok(r > 0.0)
    case JBool(b) => Ok(b)
    case _ => Err(TypeError)
  }

  /** `d.get(key, {})` on a value that must be a dict; anything else has no `get` and raises `AttributeError`. */
  function DictOf(v: Json): Result<Dict, PyError> {
    if v.JObj? then Ok(v.fields) else Err(AttributeError)
  }

  /**
   * The primary photo's URL: only when `photos.count > 0`, then
   * `urls.get("600") or urls.get("100")`; `None` (`JNull`) otherwise.
   */
  function PhotoUrl(data: Dict): (r: Result<Json, PyError>)
    ensures r.Ok? ==> GetOr(data, "photos", JObj(map[])).JObj?
    ensures r.Ok? && Positive(GetOr(GetOr(data, "photos", JObj(map[])).fields, "count", JInt(0))) == Ok(false)
      ==> r.value == JNull
  {
    var photos :- DictOf(GetOr(data, "photos", JObj(map[])));
    var positive :- Positive(GetOr(photos, "count", JInt(0)));
    if !positive then Ok(JNull)
    else
      var primary :- DictOf(GetOr(photos, "primary", JObj(map[])));
      var urls :- DictOf(GetOr(primary, "urls", JObj(map[])));
      var large := Get(urls, "600");
      Ok(if Truthy(large) then large else Get(urls, "100"))
  }

  /** `[Lap.from_api_response(lap) for lap in laps_data]`, with what iterating a non-list does. */
  function LapsOf(lapsData: Json): (r: Result<seq<Lap>, PyError>)
    ensures lapsData.JArr? && (forall i :: 0 <= i < |lapsData.items| ==> lapsData.items[i].JObj?) ==>
      r.Ok? && |r.value| == |lapsData.items|
      && forall i :: 0 <= i < |r.value| ==> r.value[i] == LapFromApiResponse(lapsData.items[i].fields)
    ensures lapsData.JArr? && (exists i :: 0 <= i < |lapsData.items| && !lapsData.items[i].JObj?) ==>
      r == Err(AttributeError)
  {
    match lapsData
    case JArr(items) => MapLaps(items)
    // Iterating a dict or a string yields its keys or characters, which have no `get`.
    case JObj(fields) => if |fields| == 0 then Ok([]) else Err(AttributeError)
    case JStr(s) => if |s| == 0 then Ok([]) else Err(AttributeError)
    // None, numbers and booleans are not iterable.
    case _ => Err(TypeError)
  }

  function MapLaps(items: seq<Json>): (r: Result<seq<Lap>, PyError>)
    ensures (forall i :: 0 <= i < |items| ==> items[i].JObj?) ==>
      r.Ok? && |r.value| == |items|
      && forall i :: 0 <= i < |r.value| ==> r.value[i] == LapFromApiResponse(items[i].fields)
    ensures (exists i :: 0 <= i < |items| && !items[i].JObj?) ==> r == Err(AttributeError)
    decreases |items|
  {
    if |items| == 0 then Ok([])
    else if !items[0].JObj? then Err(AttributeError)
    else
      var rest := MapLaps(items[1..]);
      if rest.Err? then rest else Ok([LapFromApiResponse(items[0].fields)] + rest.value)
  }

  /** The value handed to the date parser: `start_date_local`, else `start_date`, else "". */
  function StartDateText(data: Dict): Json {
    GetOr(data, "start_date_local", GetOr(data, "start_date", JStr("")))
  }

  /**
   * The start date. A falsy value means `datetime.now()`, which is `None` here.
   * A string goes to `dateutil`'s parser, whose verdict `parse` is a parameter,
   * and raises its `ValueError` or `OverflowError` as that verdict says. Any
   * other truthy value is no string or stream, and the parser raises `TypeError`.
   */
  function StartDate(data: Dict, parse: string -> DateVerdict): (r: Result<Option<string>, PyError>)
    ensures r == Ok(None) <==> !Truthy(StartDateText(data))
    ensures r.Ok? && r.value.Some? <==>
      Truthy(StartDateText(data)) && StartDateText(data).JStr? && parse(StartDateText(data).s) == Parsed
    ensures r.Ok? && r.value.Some? ==> StartDateText(data) == JStr(r.value.value)
    ensures Truthy(StartDateText(data)) && !StartDateText(data).JStr? ==> r == Err(TypeError)
    ensures Truthy(StartDateText(data)) && StartDateText(data).JStr? && parse(StartDateText(data).s) == Rejected ==>
      r == Err(ValueError)
    ensures Truthy(StartDateText(data)) && StartDateText(data).JStr? && parse(StartDateText(data).s) == Overflows ==>
      r == Err(OverflowError)
  {
    var text := StartDateText(data);
    if !Truthy(text) then Ok(None)
    else if !text.JStr? then Err(TypeError)
    else
      match parse(text.s)
      case Parsed => Ok(Some(text.s))
      case Rejected => Err(ValueError)
      case Overflows => Err(OverflowError)
  }

  /**
   * `Activity.from_api_response`: start-date errors come first, then photo
   * errors, then lap errors, then the `KeyError` for a missing `id`; every
   * other field is a `dict.get` with its default.
   */
  function ActivityFromApiResponse(data: Dict, parse: string -> DateVerdict): (r: Result<Activity, PyError>)
    ensures r.Ok? <==>
      StartDate(data, parse).Ok? && PhotoUrl(data).Ok? && LapsOf(GetOr(data, "laps", JArr([]))).Ok? && "id" in data
    ensures StartDate(data, parse).Err? ==> r == Err(StartDate(data, parse).error)
    ensures StartDate(data, parse).Ok? && PhotoUrl(data).Err? ==> r == Err(PhotoUrl(data).error)
    ensures StartDate(data, parse).Ok? && PhotoUrl(data).Ok? && LapsOf(GetOr(data, "laps", JArr([]))).Err? ==>
      r == Err(LapsOf(GetOr(data, "laps", JArr([]))).error)
    ensures r.Err? && r.error.KeyError? ==> r.error.key == "id"
    ensures r.Ok? ==>
      var a := r.value;
      && a.id == data["id"]
      && a.startDate == StartDate(data, parse).value
      && a.name == GetOr(data, "name", JStr("Untitled Activity"))
      && a.sportType == GetOr(data, "sport_type", GetOr(data, "type", JStr("Workout")))
      && a.photoUrl == PhotoUrl(data).value
      && a.laps == LapsOf(GetOr(data, "laps", JArr([]))).value
      && a.raw == data
    ensures r.Ok? ==>
      var a := r.value;
      && a.description == (if "description" in data then data["description"] else JNull)
      && a.elapsedTime == (if "elapsed_time" in data then data["elapsed_time"] else JInt(0))
      && a.movingTime == (if "moving_time" in data then data["moving_time"] else JInt(0))
      && a.distance == (if "distance" in data then data["distance"] else JNum(0.0))
      && a.averageSpeed == (if "average_speed" in data then data["average_speed"] else JNum(0.0))
      && a.maxSpeed == (if "max_speed" in data then data["max_speed"] else JNull)
      && a.totalElevationGain == (if "total_elevation_gain" in data then data["total_elevation_gain"] else JNum(0.0))
      && a.averageHeartrate == (if "average_heartrate" in data then data["average_heartrate"] else JNull)
      && a.maxHeartrate == (if "max_heartrate" in data then data["max_heartrate"] else JNull)
      && a.calories == (if "calories" in data then data["calories"] else JNull)
      && a.startLatlng == (if "start_latlng" in data then data["start_latlng"] else JNull)
  {
    var startDate :- StartDate(data, parse);
    var photoUrl :- PhotoUrl(data);
    var laps :- LapsOf(GetOr(data, "laps", JArr([])));
    if "id" !in data then Err(KeyError("id"))
    else
      Ok(Activity(
        data["id"],
        startDate,
        GetOr(data, "name", JStr("Untitled Activity")),
        GetOr(data, "sport_type", GetOr(data, "type", JStr("Workout"))),
        Get(data, "description"),
        GetOr(data, "elapsed_time", JInt(0)),
        GetOr(data, "moving_time", JInt(0)),
        GetOr(data, "distance", JNum(0.0)),
        GetOr(data, "average_speed", JNum(0.0)),
        Get(data, "max_speed"),
        GetOr(data, "total_elevation_gain", JNum(0.0)),
        Get(data, "average_heartrate"),
        Get(data, "max_heartrate"),
        Get(data, "calories"),
        Get(data, "start_latlng"),
        photoUrl,
        laps,
        data))
  }

  /** An object holding only an id reads with every default: no photo, no laps, zero times. */
  lemma MinimalActivity(id: Json, parse: string -> DateVerdict)
    ensures var r := ActivityFromApiResponse(map["id" := id], parse);
      && r.Ok?
      && r.value.id == id
      && r.value.startDate == None
      && r.value.name == JStr("Untitled Activity")
      && r.value.sportType == JStr("Workout")
      && r.value.elapsedTime == JInt(0) && r.value.movingTime == JInt(0)
      && r.value.distance == JNum(0.0)
      && r.value.description == JNull && r.value.maxSpeed == JNull
      && r.value.photoUrl == JNull
      && r.value.laps == []
  {
    var data := map["id" := id];
    assert "photos" !in data && "laps" !in data && "start_date_local" !in data && "start_date" !in data;
    assert StartDate(data, parse) == Ok(None);
    assert PhotoUrl(data) == Ok(JNull);
    assert LapsOf(GetOr(data, "laps", JArr([]))) == Ok([]);
  }

  /** Without an id the read fails with `KeyError('id')` once the start date, photos and laps are well formed. */
  lemma MissingId(data: Dict, parse: string -> DateVerdict)
    requires "id" !in data && "photos" !in data && "laps" !in data
    ensures ActivityFromApiResponse(data, parse)
         == if StartDate(data, parse).Err? then Err(StartDate(data, parse).error) else Err(KeyError("id"))
  {
  }

  /** A start date the parser rejects raises before the id is looked up. */
  lemma UnparsableStartDate(parse: string -> DateVerdict)
    requires parse("not a date") == Rejected
    ensures ActivityFromApiResponse(map["id" := JInt(1), "start_date_local" := JStr("not a date")], parse)
         == Err(ValueError)
  {
  }

  /** A start date whose year overflows a C integer raises `OverflowError`, which nothing catches. */
  lemma OverflowingStartDate(parse: string -> DateVerdict)
    requires parse("99999999999999999999-01-01") == Overflows
    ensures ActivityFromApiResponse(map["id" := JInt(1), "start_date" := JStr("99999999999999999999-01-01")], parse)
         == Err(OverflowError)
  {
  }

  /** A truthy start date that is not a string raises `TypeError`, even before a null `photos` is read. */
  lemma NonStringStartDate(parse: string -> DateVerdict)
    ensures ActivityFromApiResponse(map["photos" := JNull, "start_date" := JInt(5)], parse) == Err(TypeError)
  {
  }

  /** `start_date_local` wins over `start_date`, and a falsy one falls back to the clock, not to `start_date`. */
  lemma StartDatePrecedence(local: string, utc: string, parse: string -> DateVerdict)
    ensures StartDate(map["start_date_local" := JStr(local), "start_date" := JStr(utc)], parse)
         == if local == "" then Ok(None)
            else match parse(local)
              case Parsed => Ok(Some(local))
              case Rejected => Err(ValueError)
              case Overflows => Err(OverflowError)
  {
  }

  /** `sport_type` wins over `type`; `type` is the fallback only when `sport_type` is absent. */
  lemma SportTypeFallback(data: Dict, parse: string -> DateVerdict, r: Activity)
    requires ActivityFromApiResponse(data, parse) == Ok(r)
    ensures "sport_type" in data ==> r.sportType == data["sport_type"]
    ensures "sport_type" !in data && "type" in data ==> r.sportType == data["type"]
    ensures "sport_type" !in data && "type" !in data ==> r.sportType == JStr("Workout")
  {
  }

  /**
   * Photo selection when the count is positive and `photos`, `primary` and
   * `urls` are objects (or absent, reading as `{}`): the 600 px URL when
   * truthy, otherwise whatever the 100 px entry holds.
   */
  lemma PhotoSelection(data: Dict)
    requires GetOr(data, "photos", JObj(map[])).JObj?
    requires Positive(GetOr(GetOr(data, "photos", JObj(map[])).fields, "count", JInt(0))) == Ok(true)
    requires GetOr(GetOr(data, "photos", JObj(map[])).fields, "primary", JObj(map[])).JObj?
    requires GetOr(GetOr(GetOr(data, "photos", JObj(map[])).fields, "primary", JObj(map[])).fields, "urls", JObj(map[])).JObj?
    ensures var urls := GetOr(GetOr(GetOr(data, "photos", JObj(map[])).fields, "primary", JObj(map[])).fields, "urls", JObj(map[])).fields;
      && PhotoUrl(data).Ok?
      && (Truthy(Get(urls, "600")) ==> PhotoUrl(data).value == urls["600"])
      && (!Truthy(Get(urls, "600")) ==> PhotoUrl(data).value == Get(urls, "100"))
  {
  }

  /** With a zero count the photo is `None`, whatever the `primary` entry holds. */
  lemma NoPhotoWithoutCount(primary: Json)
    ensures PhotoUrl(map["photos" := JObj(map["count" := JInt(0), "primary" := primary])]) == Ok(JNull)
  {
  }

  /** An explicit `"photos": null` has no `get`: `AttributeError`, before anything but the start date is read. */
  lemma NullPhotosRaise(data: Dict, parse: string -> DateVerdict)
    requires "photos" in data && data["photos"] == JNull
    ensures ActivityFromApiResponse(data, parse)
         == if StartDate(data, parse).Err? then Err(StartDate(data, parse).error) else Err(AttributeError)
  {
  }

  /** The keys every scalar field of `Activity` is read from. */
  const ActivityKeys: set<string> := {
    "name", "sport_type", "description", "elapsed_time", "moving_time", "distance", "average_speed",
    "max_speed", "total_elevation_gain", "average_heartrate", "max_heartrate", "calories", "start_latlng"}

  /** An object that holds every key reads as exactly its own values, the defaults playing no part. */
  lemma ActivityReadsPresentKeys(data: Dict, parse: string -> DateVerdict)
    requires forall k :: k in ActivityKeys ==> k in data
    requires ActivityFromApiResponse(data, parse).Ok?
    ensures var a := ActivityFromApiResponse(data, parse).value;
      && a.name == data["name"] && a.sportType == data["sport_type"] && a.description == data["description"]
      && a.elapsedTime == data["elapsed_time"] && a.movingTime == data["moving_time"]
      && a.distance == data["distance"] && a.averageSpeed == data["average_speed"]
      && a.maxSpeed == data["max_speed"] && a.totalElevationGain == data["total_elevation_gain"]
      && a.averageHeartrate == data["average_heartrate"] && a.maxHeartrate == data["max_heartrate"]
      && a.calories == data["calories"] && a.startLatlng == data["start_latlng"]
  {
    assert "name" in ActivityKeys && "sport_type" in ActivityKeys && "description" in ActivityKeys;
    assert "elapsed_time" in ActivityKeys && "moving_time" in ActivityKeys && "distance" in ActivityKeys;
    assert "average_speed" in ActivityKeys && "max_speed" in ActivityKeys && "total_elevation_gain" in ActivityKeys;
    assert "average_heartrate" in ActivityKeys && "max_heartrate" in ActivityKeys;
    assert "calories" in ActivityKeys && "start_latlng" in ActivityKeys;
  }

  /** The laps of an activity are read element by element from its `laps` list: the rendered list reads back. */
  lemma ActivityLapsRoundTrip(data: Dict, laps: seq<Lap>, parse: string -> DateVerdict)
    requires "laps" in data && data["laps"] == JArr(LapObjects(laps))
    requires ActivityFromApiResponse(data, parse).Ok?
    ensures ActivityFromApiResponse(data, parse).value.laps == laps
  {
    LapsRoundTrip(laps);
  }

  /** A run, as in the test suite, has the runner icon and a pace display. */
  lemma TestSuiteActivityKind()
    ensures ActivityIcon(JStr("Run")) == Ok(Runner) && IsRunOrWalk(JStr("Run")) == Ok(true)
  {
  }

  /** The activity of the test suite reads with the values it was given. */
  lemma TestSuiteActivity(parse: string -> DateVerdict)
    requires parse("2025-11-29T07:30:00Z") == Parsed
    ensures var data := map[
        "id" := JInt(12345678901), "name" := JStr("Morning Run"), "sport_type" := JStr("Run"),
        "start_date_local" := JStr("2025-11-29T07:30:00Z"), "distance" := JNum(5000.0)];
      var r := ActivityFromApiResponse(data, parse);
      && r.Ok? && r.value.id == JInt(12345678901) && r.value.name == JStr("Morning Run")
      && r.value.sportType == JStr("Run") && r.value.distance == JNum(5000.0)
      && r.value.startDate == Some("2025-11-29T07:30:00Z")
  {
    var data := map[
        "id" := JInt(12345678901), "name" := JStr("Morning Run"), "sport_type" := JStr("Run"),
        "start_date_local" := JStr("2025-11-29T07:30:00Z"), "distance" := JNum(5000.0)];
    assert "photos" !in data && "laps" !in data;
    assert StartDateText(data) == JStr("2025-11-29T07:30:00Z");
    assert StartDate(data, parse) == Ok(Some("2025-11-29T07:30:00Z"));
    assert PhotoUrl(data) == Ok(JNull);
    assert LapsOf(GetOr(data, "laps", JArr([]))) == Ok([]);
  }
}

=== FILE: pagination.dfy ===
/**
 * The pagination loop of `StravaClient.get_activities`. Each page request is
 * one `_request` call; its result (a list of activity summaries, or the
 * failure it raised) comes from a script of page results. The generator's
 * output is collected: the items yielded, the queries sent, and the failure
 * that ended it, if any.
 */
module Pagination {
  import opened Wrappers
  import Json
  import Requests

  /** The largest `per_page` Strava accepts. */
  const MaxPerPage := 200

  /** `min(per_page, 200)`. */
  function Clamp(perPage: int): (n: int)
    ensures n <= MaxPerPage && n <= perPage && (n == perPage || n == MaxPerPage)
  {
    if perPage < MaxPerPage then perPage else MaxPerPage
  }

  /** The caller's arguments: `per_page` and the `after`/`before` epoch bounds, if given. */
  datatype Params = Params(perPage: int, after: Option<int>, before: Option<int>)

  /** The query parameters of one page request. */
  datatype PageQuery = PageQuery(perPage: int, page: int, after: Option<int>, before: Option<int>)

  /** What `_request` returned for a page (a JSON list), or the failure it raised. */
  type PageResult = Result<seq<Json.Json>, Requests.Failure>

  /** The loop ends at this page: a failure, an empty page, or one shorter than `threshold`. */
  predicate Stops(r: PageResult, threshold: int) {
    r.Err? || |r.value| == 0 || |r.value| < threshold
  }

  /** Some scripted page ends the loop. */
  predicate StopsSomewhere(pages: seq<PageResult>, threshold: int)
    decreases |pages|
  {
    |pages| > 0 && (Stops(pages[0], threshold) || StopsSomewhere(pages[1..], threshold))
  }

  /** The index of the first page that ends the loop. */
  function FirstStop(pages: seq<PageResult>, threshold: int): (i: nat)
    requires StopsSomewhere(pages, threshold)
    ensures i < |pages| && Stops(pages[i], threshold)
    ensures forall k :: 0 <= k < i ==> !Stops(pages[k], threshold)
    decreases |pages|
  {
    if Stops(pages[0], threshold) then 0
    else
      var j := FirstStop(pages[1..], threshold);
      assert forall k :: 1 <= k < j + 1 ==> pages[k] == pages[1..][k - 1];
      j + 1
  }

  /** The generator's collected output. */
  datatype Fetched = Fetched(items: seq<Json.Json>, queries: seq<PageQuery>, error: Option<Requests.Failure>)

  /**
   * The loop from page number `page` on, with the short-page test against
   * `threshold`; the query always carries `min(per_page, 200)`.
   */
  function FetchFrom(pages: seq<PageResult>, p: Params, threshold: int, page: int): (f: Fetched)
    requires StopsSomewhere(pages, threshold)
    ensures |f.queries| >= 1 && f.queries[0] == PageQuery(Clamp(p.perPage), page, p.after, p.before)
    decreases |pages|
  {
    var query := PageQuery(Clamp(p.perPage), page, p.after, p.before);
    match pages[0]
    case Err(e) => Fetched([], [query], Some(e))
    case Ok(items) =>
      if |items| == 0 then Fetched([], [query], None)
      else if |items| < threshold then Fetched(items, [query], None)
      else
        var rest := FetchFrom(pages[1..], p, threshold, page + 1);
        Fetched(items + rest.items, [query] + rest.queries, rest.error)
  }

  /** `get_activities` as written: the short-page test compares with the unclamped `per_page`. */
  function GetActivitiesAsWritten(pages: seq<PageResult>, p: Params): (f: Fetched)
    requires StopsSomewhere(pages, p.perPage)
    ensures |f.queries| >= 1 && f.queries[0] == PageQuery(Clamp(p.perPage), 1, p.after, p.before)
  {
    FetchFrom(pages, p, p.perPage, 1)
  }

  /** `get_activities` with the short-page test against the `per_page` that was sent. */
  function GetActivities(pages: seq<PageResult>, p: Params): (f: Fetched)
    requires StopsSomewhere(pages, Clamp(p.perPage))
    ensures |f.queries| >= 1 && f.queries[0] == PageQuery(Clamp(p.perPage), 1, p.after, p.before)
  {
    FetchFrom(pages, p, Clamp(p.perPage), 1)
  }

  /** The in-order concatenation of the pages' items; a failed page contributes none. */
  function Yielded(pages: seq<PageResult>): seq<Json.Json>
    decreases |pages|
  {
    if |pages| == 0 then []
    else (if pages[0].Ok? then pages[0].value else []) + Yielded(pages[1..])
  }

  /**
   * Pages 1, 2, 3, ... are requested consecutively with `min(per_page, 200)`,
   * up to and including the first page that ends the loop and no further; the
   * items yielded are the in-order concatenation of the fetched pages; a
   * failure ends the output with the error of that page.
   */
  lemma {:induction false} FetchShape(pages: seq<PageResult>, p: Params, threshold: int, page: int)
    requires StopsSomewhere(pages, threshold)
    ensures var f := FetchFrom(pages, p, threshold, page);
      var n := FirstStop(pages, threshold) + 1;
      && |f.queries| == n
      && (forall k :: 0 <= k < n ==> f.queries[k] == PageQuery(Clamp(p.perPage), page + k, p.after, p.before))
      && f.items == Yielded(pages[..n])
      && (f.error.Some? <==> pages[n - 1].Err?)
      && (f.error.Some? ==> f.error.value == pages[n - 1].error)
    decreases |pages|
  {
    var f := FetchFrom(pages, p, threshold, page);
    var n := FirstStop(pages, threshold) + 1;
    if Stops(pages[0], threshold) {
      assert n == 1;
      assert pages[..1] == [pages[0]];
      assert Yielded([pages[0]][1..]) == [];
    } else {
      var rest := FetchFrom(pages[1..], p, threshold, page + 1);
      FetchShape(pages[1..], p, threshold, page + 1);
      var m := FirstStop(pages[1..], threshold) + 1;
      assert n == m + 1 by {
        FirstStopTail(pages, threshold);
      }
      assert f.queries == [f.queries[0]] + rest.queries;
      assert pages[..n][1..] == pages[1..][..m];
      assert pages[1..][m - 1] == pages[n - 1];
    }
  }

  lemma FirstStopTail(pages: seq<PageResult>, threshold: int)
    requires StopsSomewhere(pages, threshold) && !Stops(pages[0], threshold)
    ensures StopsSomewhere(pages[1..], threshold)
    ensures FirstStop(pages, threshold) == FirstStop(pages[1..], threshold) + 1
  {
  }

  /** A page of `per_page` items or more never ends the loop, unless it is empty. */
  lemma FullPageContinues(pages: seq<PageResult>, p: Params, threshold: int, page: int)
    requires StopsSomewhere(pages, threshold)
    requires pages[0].Ok? && |pages[0].value| > 0 && |pages[0].value| >= threshold
    ensures |FetchFrom(pages, p, threshold, page).queries| >= 2
  {
  }

  // ---------------------------------------------------------------------------
  // An honest server: the caller's activities, served `n` to a page

  /** The pages a server holding `all` returns for `per_page = n`; it ends with a short or empty page. */
  function ServerPages(all: seq<Json.Json>, n: int): (pages: seq<PageResult>)
    requires n >= 1
    ensures (|pages| - 1) * n <= |all| < |pages| * n
    decreases |all|
  {
    if |all| < n then [Ok(all)]
    else
      var rest := ServerPages(all[n..], n);
      assert (|rest| + 1) * n == |rest| * n + n;
      [Ok(all[..n])] + rest
  }

  /** With a threshold equal to the served page size, all of `all` is yielded, one request per served page. */
  lemma {:induction false} ServerPagesComplete(all: seq<Json.Json>, n: int, p: Params, page: int)
    requires n >= 1
    ensures StopsSomewhere(ServerPages(all, n), n)
    ensures var f := FetchFrom(ServerPages(all, n), p, n, page);
      f.items == all && f.error.None? && |f.queries| == |ServerPages(all, n)|
    decreases |all|
  {
    var pages := ServerPages(all, n);
    if |all| >= n {
      assert pages[1..] == ServerPages(all[n..], n);
      ServerPagesComplete(all[n..], n, p, page + 1);
      assert all[..n] + all[n..] == all;
    }
  }

  /**
   * A server that honours the `per_page` sent: every activity is yielded, in
   * order, for any positive `per_page`, after k requests where
   * (k - 1) * n <= |all| < k * n for n = min(per_page, 200); that is,
   * `|all| // n + 1` requests, the last one short or empty.
   */
  lemma HonestServer(all: seq<Json.Json>, p: Params)
    requires p.perPage >= 1
    ensures StopsSomewhere(ServerPages(all, Clamp(p.perPage)), Clamp(p.perPage))
    ensures var f := GetActivities(ServerPages(all, Clamp(p.perPage)), p);
      && f.items == all && f.error.None?
      && (|f.queries| - 1) * Clamp(p.perPage) <= |all| < |f.queries| * Clamp(p.perPage)
  {
    ServerPagesComplete(all, Clamp(p.perPage), p, 1);
  }

  /** As written, `per_page` below 201 behaves exactly like the corrected loop. */
  lemma AsWrittenAgreesUpTo200(pages: seq<PageResult>, p: Params)
    requires p.perPage <= MaxPerPage && StopsSomewhere(pages, p.perPage)
    ensures StopsSomewhere(pages, Clamp(p.perPage))
    ensures GetActivitiesAsWritten(pages, p) == GetActivities(pages, p)
  {
  }

  /** As written, `per_page > 200` stops after page 1 whenever the server sends at most 200 items. */
  lemma AsWrittenStopsAfterFirstPage(pages: seq<PageResult>, p: Params)
    requires p.perPage > MaxPerPage && |pages| > 0 && pages[0].Ok? && |pages[0].value| <= MaxPerPage
    ensures StopsSomewhere(pages, p.perPage)
    ensures var f := GetActivitiesAsWritten(pages, p);
      f.queries == [PageQuery(MaxPerPage, 1, p.after, p.before)] && f.items == pages[0].value
  {
  }

  /** So, as written, an account with more than 200 activities loses all but the first 200 when `per_page > 200`. */
  lemma AsWrittenLosesActivities(all: seq<Json.Json>, p: Params)
    requires p.perPage > MaxPerPage && |all| > MaxPerPage
    ensures StopsSomewhere(ServerPages(all, MaxPerPage), p.perPage)
    ensures GetActivitiesAsWritten(ServerPages(all, MaxPerPage), p).items == all[..MaxPerPage]
    ensures GetActivitiesAsWritten(ServerPages(all, MaxPerPage), p).items != all
  {
    var pages := ServerPages(all, MaxPerPage);
    assert pages[0] == Ok(all[..MaxPerPage]);
    AsWrittenStopsAfterFirstPage(pages, p);
    assert |all[..MaxPerPage]| != |all|;
  }
}

=== FILE: ratelimit.dfy ===
/**
 * Rate-limit accounting (`RateLimitInfo` and `StravaClient._update_rate_limits`
 * in `api.py`): the two windows, the advisory `is_limited` test, the parsing of
 * the `X-RateLimit-Limit` / `X-RateLimit-Usage` headers and the status line.
 */
module RateLimits {
  import opened Wrappers
  import Text

  /** `RateLimitInfo`: the 15-minute and daily limits and the usage against them. */
  datatype RateLimitInfo = RateLimitInfo(limit15min: int, usage15min: int, limitDaily: int, usageDaily: int)

  /** The dataclass defaults, in force until the first header arrives. */
  const DefaultRateLimit := RateLimitInfo(100, 0, 1000, 0)

  /** `remaining_15min`: calls left in the 15-minute window. */
  function Remaining15Min(r: RateLimitInfo): (n: int)
    ensures r.usage15min + n == r.limit15min
  {
    r.limit15min - r.usage15min
  }

  /** `remaining_daily`: calls left today. */
  function RemainingDaily(r: RateLimitInfo): (n: int)
    ensures r.usageDaily + n == r.limitDaily
  {
    r.limitDaily - r.usageDaily
  }

  /** `is_limited`: either window used up. */
  predicate IsLimited(r: RateLimitInfo) {
    r.usage15min >= r.limit15min || r.usageDaily >= r.limitDaily
  }

  /** Limited exactly when one of the windows has nothing remaining. */
  lemma LimitedIffNothingRemaining(r: RateLimitInfo)
    ensures IsLimited(r) <==> Remaining15Min(r) <= 0 || RemainingDaily(r) <= 0
    ensures !IsLimited(DefaultRateLimit)
    ensures Remaining15Min(DefaultRateLimit) == 100 && RemainingDaily(DefaultRateLimit) == 1000
  {
  }

  // ---------------------------------------------------------------------------
  // Header parsing

  /** Response headers by exact name. */
  type Headers = map<string, string>

  const LimitHeader := "X-RateLimit-Limit"
  const UsageHeader := "X-RateLimit-Usage"

  /** `response.headers.get(name, "")`. */
  function HeaderOr(h: Headers, name: string): string {
    if name in h then h[name] else ""
  }

  /** `int(parts[i])`, where an index past the end raises like a bad number. */
  function PartAt(parts: seq<string>, i: nat): Option<int> {
    if i < |parts| then Text.ParseInt(parts[i]) else None
  }

  /** The four parses the assignments attempt, in order. */
  function Parsed(h: Headers): (p: seq<Option<int>>)
    ensures |p| == 4
  {
    var limits := Text.Split(HeaderOr(h, LimitHeader), ',');
    var usages := Text.Split(HeaderOr(h, UsageHeader), ',');
    [PartAt(limits, 0), PartAt(limits, 1), PartAt(usages, 0), PartAt(usages, 1)]
  }

  /**
   * The four assignments of `_update_rate_limits`, in source order:
   * `limit_15min`, `limit_daily`, `usage_15min`, `usage_daily`. The first one
   * whose parse raises ends the `try`, so the ones before it stay assigned.
   */
  function AssignInOrder(r: RateLimitInfo, p: seq<Option<int>>): RateLimitInfo
    requires |p| == 4
  {
    if p[0].None? then r
    else if p[1].None? then r.(limit15min := p[0].value)
    else if p[2].None? then r.(limit15min := p[0].value, limitDaily := p[1].value)
    else if p[3].None? then r.(limit15min := p[0].value, limitDaily := p[1].value, usage15min := p[2].value)
    else RateLimitInfo(p[0].value, p[2].value, p[1].value, p[3].value)
  }

  /** `_update_rate_limits`: nothing happens unless both headers are present and non-empty. */
  function UpdateRateLimits(r: RateLimitInfo, h: Headers): (u: RateLimitInfo)
    ensures HeaderOr(h, LimitHeader) == "" || HeaderOr(h, UsageHeader) == "" ==> u == r
  {
    if HeaderOr(h, LimitHeader) == "" || HeaderOr(h, UsageHeader) == "" then r
    else AssignInOrder(r, Parsed(h))
  }

  /** The fields in assignment order. */
  function Fields(r: RateLimitInfo): seq<int> {
    [r.limit15min, r.limitDaily, r.usage15min, r.usageDaily]
  }

  /** A field is assigned exactly when its parse and every earlier one succeed. */
  predicate AssignedPrefix(r: RateLimitInfo, u: RateLimitInfo, p: seq<Option<int>>)
    requires |p| == 4
  {
    forall k :: 0 <= k < 4 ==>
      Fields(u)[k] == (if forall j :: 0 <= j <= k ==> p[j].Some? then p[k].value else Fields(r)[k])
  }

  lemma AssignInOrderPrefix(r: RateLimitInfo, p: seq<Option<int>>)
    requires |p| == 4
    ensures AssignedPrefix(r, AssignInOrder(r, p), p)
  {
    var u := AssignInOrder(r, p);
    forall k | 0 <= k < 4
      ensures Fields(u)[k] == (if forall j :: 0 <= j <= k ==> p[j].Some? then p[k].value else Fields(r)[k])
    {
      var m := if p[0].None? then 0 else if p[1].None? then 1 else if p[2].None? then 2 else if p[3].None? then 3 else 4;
      if m <= k {
        assert p[m].None?;
        assert !(forall j :: 0 <= j <= k ==> p[j].Some?) by { assert 0 <= m <= k; }
      } else {
        assert forall j :: 0 <= j <= k ==> p[j].Some?;
      }
    }
  }

  /**
   * With both headers present, field k (in assignment order) is updated exactly
   * when parses 0..k all succeed, and then holds parse k; otherwise it keeps its
   * old value.
   */
  lemma UpdateAssignsPrefix(r: RateLimitInfo, h: Headers)
    requires HeaderOr(h, LimitHeader) != "" && HeaderOr(h, UsageHeader) != ""
    ensures AssignedPrefix(r, UpdateRateLimits(r, h), Parsed(h))
  {
    AssignInOrderPrefix(r, Parsed(h));
  }

  /** The header pair a server would send to report `info`. */
  function RenderHeaders(info: RateLimitInfo): Headers {
    map[
      LimitHeader := Text.IntToString(info.limit15min) + "," + Text.IntToString(info.limitDaily),
      UsageHeader := Text.IntToString(info.usage15min) + "," + Text.IntToString(info.usageDaily)]
  }

  /** A rendered number holds only digits and a minus sign. */
  lemma IntToStringHasNoComma(n: int)
    ensures ',' !in Text.IntToString(n) && '/' !in Text.IntToString(n) && ' ' !in Text.IntToString(n)
    ensures Text.IntToString(n) != ""
  {
  }

  lemma SplitPair(a: string, b: string)
    requires ',' !in a && ',' !in b
    ensures Text.Split(a + "," + b, ',') == [a, b]
  {
    assert Text.Join([a, b], ',') == a + "," + b;
    Text.SplitJoin([a, b], ',');
  }

  /** A rendered `a,b` pair: its first two parts parse to `a` and `b`. */
  lemma PairParsesBack(x: int, y: int)
    ensures var parts := Text.Split(Text.IntToString(x) + "," + Text.IntToString(y), ',');
      PartAt(parts, 0) == Some(x) && PartAt(parts, 1) == Some(y)
  {
    IntToStringHasNoComma(x);
    IntToStringHasNoComma(y);
    SplitPair(Text.IntToString(x), Text.IntToString(y));
    Text.IntRoundTrip(x);
    Text.IntRoundTrip(y);
  }

  lemma RenderedHeadersParse(info: RateLimitInfo)
    ensures HeaderOr(RenderHeaders(info), LimitHeader) != "" && HeaderOr(RenderHeaders(info), UsageHeader) != ""
    ensures Parsed(RenderHeaders(info))
         == [Some(info.limit15min), Some(info.limitDaily), Some(info.usage15min), Some(info.usageDaily)]
  {
    var h := RenderHeaders(info);
    var limit := Text.IntToString(info.limit15min) + "," + Text.IntToString(info.limitDaily);
    var usage := Text.IntToString(info.usage15min) + "," + Text.IntToString(info.usageDaily);
    assert HeaderOr(h, LimitHeader) == limit;
    assert HeaderOr(h, UsageHeader) == usage;
    PairParsesBack(info.limit15min, info.limitDaily);
    PairParsesBack(info.usage15min, info.usageDaily);
  }

  /** Headers rendered from any counters are parsed back to exactly those counters. */
  lemma UpdateFromRenderedHeaders(r: RateLimitInfo, info: RateLimitInfo)
    ensures UpdateRateLimits(r, RenderHeaders(info)) == info
  {
    RenderedHeadersParse(info);
  }

  /** Once both headers have two parts, parts appended after them are never read. */
  lemma UpdateIgnoresExtraParts(r: RateLimitInfo, h: Headers, extraLimit: string, extraUsage: string)
    requires |Text.Split(HeaderOr(h, LimitHeader), ',')| >= 2
    requires |Text.Split(HeaderOr(h, UsageHeader), ',')| >= 2
    ensures var h' := h[LimitHeader := HeaderOr(h, LimitHeader) + "," + extraLimit]
                       [UsageHeader := HeaderOr(h, UsageHeader) + "," + extraUsage];
      UpdateRateLimits(r, h') == UpdateRateLimits(r, h)
  {
    var limit := HeaderOr(h, LimitHeader);
    var usage := HeaderOr(h, UsageHeader);
    SplitAppend(limit, extraLimit);
    SplitAppend(usage, extraUsage);
    var h' := h[LimitHeader := limit + "," + extraLimit][UsageHeader := usage + "," + extraUsage];
    assert HeaderOr(h', LimitHeader) == limit + "," + extraLimit;
    assert HeaderOr(h', UsageHeader) == usage + "," + extraUsage;
  }

  /** Appending `,extra` keeps every existing part and adds parts after them. */
  lemma SplitAppend(s: string, extra: string)
    ensures var p := Text.Split(s, ',');
      var q := Text.Split(s + "," + extra, ',');
      |q| > |p| && q[..|p|] == p
  {
    var p := Text.Split(s, ',');
    var tail := Text.Split(extra, ',');
    Text.JoinSplit(s, ',');
    Text.JoinSplit(extra, ',');
    JoinAppend(p, tail);
    Text.SplitJoin(p + tail, ',');
    assert (p + tail)[..|p|] == p;
  }

  lemma {:induction false} JoinAppend(p: seq<string>, q: seq<string>)
    requires |p| > 0 && |q| > 0
    ensures Text.Join(p + q, ',') == Text.Join(p, ',') + "," + Text.Join(q, ',')
  {
    if |p| == 1 {
      assert (p + q)[1..] == q;
    } else {
      assert (p + q)[1..] == p[1..] + q;
      JoinAppend(p[1..], q);
    }
  }

  /** Headers `100,1000` / `42,842` leave 58 and 158 calls and are not limited; `100,1000` / `100,842` is limited. */
  lemma HeaderExamples()
    ensures var u := UpdateRateLimits(DefaultRateLimit, RenderHeaders(RateLimitInfo(100, 42, 1000, 842)));
      Remaining15Min(u) == 58 && RemainingDaily(u) == 158 && !IsLimited(u)
    ensures IsLimited(UpdateRateLimits(DefaultRateLimit, RenderHeaders(RateLimitInfo(100, 100, 1000, 842))))
  {
    UpdateFromRenderedHeaders(DefaultRateLimit, RateLimitInfo(100, 42, 1000, 842));
    UpdateFromRenderedHeaders(DefaultRateLimit, RateLimitInfo(100, 100, 1000, 842));
  }

  // ---------------------------------------------------------------------------
  // The status line

  /** `get_rate_limit_status`. */
  function RateLimitStatus(r: RateLimitInfo): string {
    "Rate limits: " + Text.IntToString(r.usage15min) + "/" + Text.IntToString(r.limit15min) + " (15 min), "
      + Text.IntToString(r.usageDaily) + "/" + Text.IntToString(r.limitDaily) + " (daily)"
  }

  /** Position of the first `c` in `s`. */
  function FirstIndex(s: string, c: char): (i: nat)
    requires c in s
    ensures i < |s| && s[i] == c
  {
    if s[0] == c then 0 else assert c in s[1..]; 1 + FirstIndex(s[1..], c)
  }

  lemma {:induction false} FirstIndexAfter(x: string, y: string, c: char)
    requires c !in x
    ensures FirstIndex(x + [c] + y, c) == |x|
  {
    if |x| > 0 {
      assert (x + [c] + y)[1..] == x[1..] + [c] + y;
      FirstIndexAfter(x[1..], y, c);
    }
  }

  /** Two strings cut at their first `c` agree on both sides of the cut. */
  lemma CutAt(x: string, y: string, x2: string, y2: string, c: char)
    requires c !in x && c !in x2
    requires x + [c] + y == x2 + [c] + y2
    ensures x == x2 && y == y2
  {
    var s := x + [c] + y;
    FirstIndexAfter(x, y, c);
    FirstIndexAfter(x2, y2, c);
    assert x == s[..|x|] && x2 == s[..|x2|];
    assert y == s[|x| + 1..] && y2 == s[|x2| + 1..];
  }

  /** The status line after its fixed prefix, cut into its separators. */
  function StatusTail(r: RateLimitInfo): string {
    Text.IntToString(r.usage15min) + ['/'] + (Text.IntToString(r.limit15min) + [' '] + ("(15 min), "
      + (Text.IntToString(r.usageDaily) + ['/'] + (Text.IntToString(r.limitDaily) + [' '] + "(daily)"))))
  }

  lemma StatusShape(r: RateLimitInfo)
    ensures RateLimitStatus(r) == "Rate limits: " + StatusTail(r)
  {
    StatusRegrouped(Text.IntToString(r.usage15min), Text.IntToString(r.limit15min),
                    Text.IntToString(r.usageDaily), Text.IntToString(r.limitDaily));
  }

  lemma StatusRegrouped(a: string, b: string, c: string, d: string)
    ensures "Rate limits: " + a + "/" + b + " (15 min), " + c + "/" + d + " (daily)"
         == "Rate limits: " + (a + ['/'] + (b + [' '] + ("(15 min), " + (c + ['/'] + (d + [' '] + "(daily)")))))
  {
    assert " (15 min), " == [' '] + "(15 min), ";
    assert " (daily)" == [' '] + "(daily)";
  }

  /** The status line determines the four counters it reports. */
  lemma RateLimitStatusInjective(a: RateLimitInfo, b: RateLimitInfo)
    requires RateLimitStatus(a) == RateLimitStatus(b)
    ensures a == b
  {
    var prefix := "Rate limits: ";
    StatusShape(a);
    StatusShape(b);
    assert StatusTail(a) == RateLimitStatus(a)[|prefix|..];
    assert StatusTail(b) == RateLimitStatus(b)[|prefix|..];
    IntToStringHasNoComma(a.usage15min);
    IntToStringHasNoComma(b.usage15min);
    IntToStringHasNoComma(a.limit15min);
    IntToStringHasNoComma(b.limit15min);
    IntToStringHasNoComma(a.usageDaily);
    IntToStringHasNoComma(b.usageDaily);
    IntToStringHasNoComma(a.limitDaily);
    IntToStringHasNoComma(b.limitDaily);
    var restA := Text.IntToString(a.limit15min) + [' '] + ("(15 min), "
      + (Text.IntToString(a.usageDaily) + ['/'] + (Text.IntToString(a.limitDaily) + [' '] + "(daily)")));
    var restB := Text.IntToString(b.limit15min) + [' '] + ("(15 min), "
      + (Text.IntToString(b.usageDaily) + ['/'] + (Text.IntToString(b.limitDaily) + [' '] + "(daily)")));
    CutAt(Text.IntToString(a.usage15min), restA, Text.IntToString(b.usage15min), restB, '/');
    var dailyA := Text.IntToString(a.usageDaily) + ['/'] + (Text.IntToString(a.limitDaily) + [' '] + "(daily)");
    var dailyB := Text.IntToString(b.usageDaily) + ['/'] + (Text.IntToString(b.limitDaily) + [' '] + "(daily)");
    CutAt(Text.IntToString(a.limit15min), "(15 min), " + dailyA, Text.IntToString(b.limit15min), "(15 min), " + dailyB, ' ');
    assert dailyA == ("(15 min), " + dailyA)[10..];
    assert dailyB == ("(15 min), " + dailyB)[10..];
    CutAt(Text.IntToString(a.usageDaily), Text.IntToString(a.limitDaily) + [' '] + "(daily)",
          Text.IntToString(b.usageDaily), Text.IntToString(b.limitDaily) + [' '] + "(daily)", '/');
    CutAt(Text.IntToString(a.limitDaily), "(daily)", Text.IntToString(b.limitDaily), "(daily)", ' ');
    Text.IntRoundTrip(a.usage15min);
    Text.IntRoundTrip(b.usage15min);
    Text.IntRoundTrip(a.limit15min);
    Text.IntRoundTrip(b.limit15min);
    Text.IntRoundTrip(a.usageDaily);
    Text.IntRoundTrip(b.usageDaily);
    Text.IntRoundTrip(a.limitDaily);
    Text.IntRoundTrip(b.limitDaily);
  }
}

=== FILE: request.dfy ===
/**
 * The request executor (`StravaClient._request` in `api.py`). Every attempt
 * first runs the token check, then issues the call; the server's answer to
 * each attempt, the clock at each token check and the token endpoint's reply
 * to a refresh come from a script of attempts. The source retries by calling
 * itself with `retry_count + 1`; `RequestFrom` mirrors that recursion and the
 * method `Request` runs it as a bounded loop with the sleeps recorded.
 */
module Requests {
  import opened Wrappers
  import opened Config
  import Auth
  import RateLimits
  import Json

  /** Retries allowed for a 429 or a timeout; one counter serves both. */
  const MaxRetries := 3

  /** Seconds slept before retrying a timed-out request. */
  const TimeoutDelay := 5

  /** Seconds slept before the first retry of a 429; doubled on every retry. */
  const RateLimitBaseDelay := 60

  function Pow2(n: nat): (p: nat)
    ensures p >= 1
  {
    if n == 0 then 1 else 2 * Pow2(n - 1)
  }

  /** The message a `StravaAPIError` was raised with. */
  datatype ErrorKind =
    | NotAuthenticated
    | RateLimitExceeded
    | AuthenticationFailed
    | AccessForbidden
    | ResourceNotFound
    | RequestFailed
    | RequestTimedOut

  /** What `_request` raises: a `StravaAPIError` with its `status_code`, or a `KeyError` escaping a refresh. */
  datatype Failure = StravaApiError(kind: ErrorKind, statusCode: int) | KeyError(key: string)

  /** The server's side of one call: a response (body `None` when it does not decode), a timeout, or another transport failure. */
  datatype ServerOutcome =
    | Response(status: int, headers: RateLimits.Headers, body: Option<Json.Json>)
    | Timeout
    | ConnectionError

  /** One invocation of `_request`: the clock at its token check, the refresh reply if one is posted, the server's answer. */
  datatype Attempt = Attempt(now: real, refreshReply: Auth.TokenReply, outcome: ServerOutcome)

  /** The client's state: the config with its token file, and the tracked rate limits. */
  datatype Client = Client(session: Session, rateLimit: RateLimits.RateLimitInfo)

  /** How one attempt ends: a retry after a sleep, or the call's final result. */
  datatype Step = Retry(delay: int) | Done(result: Result<Json.Json, Failure>)

  /** The status codes `StravaAPIError` is raised with for each message. */
  function StatusCodeOf(kind: ErrorKind): int {
    match kind
    case RateLimitExceeded => 429
    case AuthenticationFailed => 401
    case AccessForbidden => 403
    case ResourceNotFound => 404
    case _ => 0
  }

  /**
   * The dispatch on a call that was sent: 429 and timeouts retry while
   * `retry_count < 3`; 401, 403 and 404 fail with their code; any other 4xx or
   * 5xx (`raise_for_status`), a transport failure or an undecodable body fail
   * with code 0.
   */
  function Classify(outcome: ServerOutcome, retryCount: nat): (s: Step)
    ensures s.Retry? ==> retryCount < MaxRetries && IsRetried(outcome)
    ensures s.Done? && s.result.Err? ==>
      s.result.error.StravaApiError? && s.result.error.statusCode == StatusCodeOf(s.result.error.kind)
    ensures s.Done? ==> !TokenCheckFailure(s.result)
    ensures outcome.ConnectionError? ==> s == Done(Err(StravaApiError(RequestFailed, 0)))
    ensures outcome.Timeout? && retryCount >= MaxRetries ==> s == Done(Err(StravaApiError(RequestTimedOut, 0)))
    ensures IsCodeZeroFailure(outcome) ==> s == Done(Err(StravaApiError(RequestFailed, 0)))
    ensures IsAccepted(outcome) ==> s == Done(Ok(outcome.body.value))
  {
    match outcome
    case Timeout =>
      if retryCount < MaxRetries then Retry(TimeoutDelay)
      else Done(Err(StravaApiError(RequestTimedOut, 0)))
    case ConnectionError =>
      Done(Err(StravaApiError(RequestFailed, 0)))
    case Response(status, _, body) =>
      if status == 429 then
        if retryCount < MaxRetries then Retry(RateLimitBaseDelay * Pow2(retryCount))
        else Done(Err(StravaApiError(RateLimitExceeded, 429)))
      else if status == 401 then Done(Err(StravaApiError(AuthenticationFailed, 401)))
      else if status == 403 then Done(Err(StravaApiError(AccessForbidden, 403)))
      else if status == 404 then Done(Err(StravaApiError(ResourceNotFound, 404)))
      else if 400 <= status < 600 then Done(Err(StravaApiError(RequestFailed, 0)))
      else if body.None? then Done(Err(StravaApiError(RequestFailed, 0)))
      else Done(Ok(body.value))
  }

  /** A response `raise_for_status` lets through and whose body decodes. */
  predicate IsAccepted(outcome: ServerOutcome) {
    outcome.Response? && !(400 <= outcome.status < 600) && outcome.body.Some?
  }

  /**
   * A sent call that fails at once with `status_code` 0: a transport failure,
   * an error status other than 401, 403, 404 and 429, or a body that does not decode.
   */
  predicate IsCodeZeroFailure(outcome: ServerOutcome) {
    || outcome.ConnectionError?
    || (outcome.Response? && 400 <= outcome.status < 600 && outcome.status !in {401, 403, 404, 429})
    || (outcome.Response? && !(400 <= outcome.status < 600) && outcome.body.None?)
  }

  /** The two failures raised by the token check, before any call is sent. */
  predicate TokenCheckFailure(r: Result<Json.Json, Failure>) {
    r.Err? && (r.error == StravaApiError(NotAuthenticated, 0) || r.error.KeyError?)
  }

  /** Only a response outside 400-599 with a decodable body is returned as a success. */
  lemma ClassifyAccepts(outcome: ServerOutcome, retryCount: nat)
    ensures var s := Classify(outcome, retryCount);
      s.Done? && s.result.Ok? ==>
        outcome.Response? && !(400 <= outcome.status < 600) && outcome.body == Some(s.result.value)
  {
  }

  /** The rate limits after a call: every response's headers are read, whatever its status. */
  function RateAfter(r: RateLimits.RateLimitInfo, outcome: ServerOutcome): RateLimits.RateLimitInfo {
    match outcome
    case Response(_, headers, _) => RateLimits.UpdateRateLimits(r, headers)
    case _ => r
  }

  /** One attempt's effect: the client after it, the bearer token sent (if a call was made), and how it ends. */
  datatype AttemptEffect = AttemptEffect(client: Client, bearer: Option<string>, step: Step)

  /** The body of `_request` for one attempt, up to its recursive call. */
  function RunAttempt(c: Client, a: Attempt, retryCount: nat): (e: AttemptEffect)
    ensures var check := Auth.EnsureValidToken(c.session, a.now, a.refreshReply);
      && e.client.session == check.session
      && (e.bearer.Some? <==> check.result == Ok(true))
      && (e.bearer.Some? ==> e.bearer.value == check.session.config.strava.accessToken)
      && (check.result == Ok(false) ==> e.step == Done(Err(StravaApiError(NotAuthenticated, 0))))
      && (check.result.Err? ==> e.step == Done(Err(KeyError(check.result.error))))
    ensures e.bearer.None? ==> e.step.Done? && e.client.rateLimit == c.rateLimit
    ensures e.bearer.Some? ==> e.client.rateLimit == RateAfter(c.rateLimit, a.outcome)
    ensures e.bearer.Some? ==> e.step == Classify(a.outcome, retryCount)
  {
    var check := Auth.EnsureValidToken(c.session, a.now, a.refreshReply);
    match check.result
    case Err(key) => AttemptEffect(c.(session := check.session), None, Done(Err(KeyError(key))))
    case Ok(valid) =>
      if !valid then
        AttemptEffect(c.(session := check.session), None, Done(Err(StravaApiError(NotAuthenticated, 0))))
      else
        AttemptEffect(
          Client(check.session, RateAfter(c.rateLimit, a.outcome)),
          Some(check.session.config.strava.accessToken),
          Classify(a.outcome, retryCount))
  }

  /** What a whole call did: its result, the client after it, the sleeps, the bearer tokens sent, the attempts used. */
  datatype RequestTrace = RequestTrace(
    result: Result<Json.Json, Failure>,
    client: Client,
    sleeps: seq<int>,
    bearers: seq<string>,
    attempts: nat)

  /** Enough scripted attempts for every retry the counter still allows. */
  predicate ScriptCovers(script: seq<Attempt>, retryCount: nat) {
    |script| > 0 && retryCount + |script| > MaxRetries
  }

  /** `_request(..., retry_count)`, following the source's self-recursion. */
  function RequestFrom(c: Client, script: seq<Attempt>, retryCount: nat): (t: RequestTrace)
    requires ScriptCovers(script, retryCount)
    decreases |script|
  {
    var e := RunAttempt(c, script[0], retryCount);
    match e.step
    case Done(r) => RequestTrace(r, e.client, [], Sent(e), 1)
    case Retry(d) => After([d], Sent(e), 1, RequestFrom(e.client, script[1..], retryCount + 1))
  }

  /** `trace` with earlier sleeps, bearers and attempts in front of it. */
  function After(sleeps: seq<int>, bearers: seq<string>, attempts: nat, trace: RequestTrace): RequestTrace {
    RequestTrace(trace.result, trace.client, sleeps + trace.sleeps, bearers + trace.bearers, attempts + trace.attempts)
  }

  /** The bearer token an attempt sent, as a sequence of zero or one. */
  function Sent(e: AttemptEffect): seq<string> {
    if e.bearer.Some? then [e.bearer.value] else []
  }

  /** One unfolding of `RequestFrom` at an attempt that ends the call. */
  lemma UnfoldDone(c: Client, script: seq<Attempt>, retryCount: nat)
    requires ScriptCovers(script, retryCount)
    requires RunAttempt(c, script[0], retryCount).step.Done?
    ensures var e := RunAttempt(c, script[0], retryCount);
      RequestFrom(c, script, retryCount) == RequestTrace(e.step.result, e.client, [], Sent(e), 1)
  {
  }

  /** One unfolding of `RequestFrom` at an attempt that retries. */
  lemma UnfoldRetry(c: Client, script: seq<Attempt>, retryCount: nat)
    requires ScriptCovers(script, retryCount)
    requires RunAttempt(c, script[0], retryCount).step.Retry?
    ensures retryCount < MaxRetries && ScriptCovers(script[1..], retryCount + 1)
    ensures var e := RunAttempt(c, script[0], retryCount);
      RequestFrom(c, script, retryCount) == After([e.step.delay], Sent(e), 1, RequestFrom(e.client, script[1..], retryCount + 1))
  {
  }

  /** After a retry, the remaining call is the recursive call on the rest of the script. */
  lemma RetryKeepsTrace(whole: RequestTrace, c: Client, script: seq<Attempt>, retryCount: nat,
                        sleeps: seq<int>, bearers: seq<string>)
    requires retryCount < |script| && ScriptCovers(script[retryCount..], retryCount)
    requires RunAttempt(c, script[retryCount], retryCount).step.Retry?
    requires whole == After(sleeps, bearers, retryCount, RequestFrom(c, script[retryCount..], retryCount))
    ensures var e := RunAttempt(c, script[retryCount], retryCount);
      && retryCount < MaxRetries && ScriptCovers(script[retryCount + 1..], retryCount + 1)
      && whole == After(sleeps + [e.step.delay], bearers + Sent(e), retryCount + 1,
                        RequestFrom(e.client, script[retryCount + 1..], retryCount + 1))
  {
    var rest := script[retryCount..];
    UnfoldRetry(c, rest, retryCount);
    assert rest[1..] == script[retryCount + 1..];
    var e := RunAttempt(c, script[retryCount], retryCount);
    var tail := RequestFrom(e.client, rest[1..], retryCount + 1);
    assert sleeps + ([e.step.delay] + tail.sleeps) == (sleeps + [e.step.delay]) + tail.sleeps;
    assert bearers + (Sent(e) + tail.bearers) == (bearers + Sent(e)) + tail.bearers;
  }

  /** An attempt that ends the call completes the trace. */
  lemma DoneEndsTrace(whole: RequestTrace, c: Client, script: seq<Attempt>, retryCount: nat,
                      sleeps: seq<int>, bearers: seq<string>)
    requires retryCount < |script| && ScriptCovers(script[retryCount..], retryCount)
    requires RunAttempt(c, script[retryCount], retryCount).step.Done?
    requires whole == After(sleeps, bearers, retryCount, RequestFrom(c, script[retryCount..], retryCount))
    ensures var e := RunAttempt(c, script[retryCount], retryCount);
      whole == RequestTrace(e.step.result, e.client, sleeps, bearers + Sent(e), retryCount + 1)
  {
    UnfoldDone(c, script[retryCount..], retryCount);
    assert sleeps + [] == sleeps;
  }

  /** `_request` from `retry_count = 0`, as a bounded loop over at most four attempts. */
  method Request(c: Client, script: seq<Attempt>) returns (t: RequestTrace)
    requires |script| > MaxRetries
    ensures t == RequestFrom(c, script, 0)
  {
    var client := c;
    var retryCount: nat := 0;
    var sleeps: seq<int> := [];
    var bearers: seq<string> := [];
    assert script[0..] == script;
    while true
      invariant retryCount <= MaxRetries
      invariant |sleeps| == retryCount
      invariant RequestFrom(c, script, 0) == After(sleeps, bearers, retryCount, RequestFrom(client, script[retryCount..], retryCount))
      decreases MaxRetries - retryCount
    {
      var e := RunAttempt(client, script[retryCount], retryCount);
      if e.step.Done? {
        DoneEndsTrace(RequestFrom(c, script, 0), client, script, retryCount, sleeps, bearers);
        return RequestTrace(e.step.result, e.client, sleeps, bearers + Sent(e), retryCount + 1);
      }
      RetryKeepsTrace(RequestFrom(c, script, 0), client, script, retryCount, sleeps, bearers);
      sleeps := sleeps + [e.step.delay];
      bearers := bearers + Sent(e);
      client := e.client;
      retryCount := retryCount + 1;
    }
  }

  // ---------------------------------------------------------------------------
  // Properties of the retry state machine

  /** The delay slept before retrying after `outcome` at retry count `n`. */
  function RetryDelay(outcome: ServerOutcome, n: nat): int {
    if outcome.Timeout? then TimeoutDelay else RateLimitBaseDelay * Pow2(n)
  }

  /** The rate limits after the calls of `script`, one header update per response. */
  function RateAfterAll(r: RateLimits.RateLimitInfo, script: seq<Attempt>): RateLimits.RateLimitInfo
    decreases |script|
  {
    if |script| == 0 then r else RateAfterAll(RateAfter(r, script[0].outcome), script[1..])
  }

  /**
   * Attempts are bounded by the shared counter, one sleep separates
   * consecutive attempts, and every attempt sent a call except a last one
   * whose token check failed.
   */
  lemma {:induction false} RequestBounds(c: Client, script: seq<Attempt>, retryCount: nat)
    requires ScriptCovers(script, retryCount)
    ensures var t := RequestFrom(c, script, retryCount);
      && 1 <= t.attempts <= |script|
      && (retryCount <= MaxRetries ==> t.attempts <= MaxRetries + 1 - retryCount)
      && |t.sleeps| == t.attempts - 1
      && (|t.bearers| == t.attempts || |t.bearers| == t.attempts - 1)
      && (|t.bearers| == t.attempts - 1 <==> TokenCheckFailure(t.result))
    decreases |script|
  {
    var e := RunAttempt(c, script[0], retryCount);
    if e.step.Retry? {
      UnfoldRetry(c, script, retryCount);
      RequestBounds(e.client, script[1..], retryCount + 1);
    } else {
      UnfoldDone(c, script, retryCount);
    }
  }

  /** An attempt retries only after a timeout or a 429, sleeping the delay for its retry count. */
  lemma RetryFollowsTimeoutOrRateLimit(c: Client, a: Attempt, retryCount: nat)
    ensures var e := RunAttempt(c, a, retryCount);
      e.step.Retry? ==> IsRetried(a.outcome) && e.step.delay == RetryDelay(a.outcome, retryCount)
  {
  }

  /** The outcomes `_request` retries after. */
  predicate IsRetried(outcome: ServerOutcome) {
    outcome.Timeout? || (outcome.Response? && outcome.status == 429)
  }

  /** Sleep k followed attempt k, a retried outcome, and lasted the delay for retry count `n + k`. */
  predicate SleepsFollow(script: seq<Attempt>, sleeps: seq<int>, n: nat) {
    && |sleeps| < |script|
    && forall k :: 0 <= k < |sleeps| ==>
         IsRetried(script[k].outcome) && sleeps[k] == RetryDelay(script[k].outcome, n + k)
  }

  lemma SleepsFollowCons(script: seq<Attempt>, d: int, rest: seq<int>, n: nat)
    requires |script| > 0 && IsRetried(script[0].outcome) && d == RetryDelay(script[0].outcome, n)
    requires SleepsFollow(script[1..], rest, n + 1)
    ensures SleepsFollow(script, [d] + rest, n)
  {
    var sleeps := [d] + rest;
    forall k | 0 <= k < |sleeps|
      ensures IsRetried(script[k].outcome) && sleeps[k] == RetryDelay(script[k].outcome, n + k)
    {
      if k > 0 {
        assert sleeps[k] == rest[k - 1];
        assert script[1..][k - 1] == script[k];
      }
    }
  }

  /** Only a timeout or a 429 is followed by a sleep: 5 s after a timeout, 60 * 2^(retry count) after a 429. */
  lemma {:induction false} RetrySchedule(c: Client, script: seq<Attempt>, retryCount: nat)
    requires ScriptCovers(script, retryCount)
    ensures SleepsFollow(script, RequestFrom(c, script, retryCount).sleeps, retryCount)
    decreases |script|
  {
    var e := RunAttempt(c, script[0], retryCount);
    RetryFollowsTimeoutOrRateLimit(c, script[0], retryCount);
    if e.step.Retry? {
      UnfoldRetry(c, script, retryCount);
      RetrySchedule(e.client, script[1..], retryCount + 1);
      SleepsFollowCons(script, e.step.delay, RequestFrom(e.client, script[1..], retryCount + 1).sleeps, retryCount);
    } else {
      UnfoldDone(c, script, retryCount);
    }
  }

  /** Every call that was sent fed the rate-limit tracker, 429s and errors included, in order. */
  lemma {:induction false} RateLimitsFollowResponses(c: Client, script: seq<Attempt>, retryCount: nat)
    requires ScriptCovers(script, retryCount)
    ensures var t := RequestFrom(c, script, retryCount);
      && |t.bearers| <= |script|
      && t.client.rateLimit == RateAfterAll(c.rateLimit, script[..|t.bearers|])
    decreases |script|
  {
    RequestBounds(c, script, retryCount);
    var e := RunAttempt(c, script[0], retryCount);
    if e.step.Retry? {
      UnfoldRetry(c, script, retryCount);
      var t := RequestFrom(c, script, retryCount);
      var rest := RequestFrom(e.client, script[1..], retryCount + 1);
      RateLimitsFollowResponses(e.client, script[1..], retryCount + 1);
      assert e.bearer.Some? && e.client.rateLimit == RateAfter(c.rateLimit, script[0].outcome);
      assert t.bearers == [e.bearer.value] + rest.bearers;
      var sent := script[..|t.bearers|];
      assert sent[0] == script[0] && sent[1..] == script[1..][..|rest.bearers|];
      assert RateAfterAll(c.rateLimit, sent) == RateAfterAll(e.client.rateLimit, sent[1..]);
    } else {
      UnfoldDone(c, script, retryCount);
      if e.bearer.Some? {
        assert script[..1] == [script[0]];
        assert RateAfterAll(c.rateLimit, script[..1]) == RateAfterAll(RateAfter(c.rateLimit, script[0].outcome), []);
      } else {
        assert script[..0] == [];
      }
    }
  }

  /** Without tokens no call is sent and the request fails as not authenticated. */
  lemma RequestWithoutTokens(c: Client, script: seq<Attempt>)
    requires |script| > MaxRetries && !HasTokens(c.session.config.strava)
    ensures var t := RequestFrom(c, script, 0);
      t == RequestTrace(Err(StravaApiError(NotAuthenticated, 0)), c, [], [], 1)
  {
  }

  /** Tokens that are present and unexpired at every check make every attempt send the current access token. */
  predicate ValidAtEveryCheck(c: Client, script: seq<Attempt>) {
    && HasTokens(c.session.config.strava)
    && forall k :: 0 <= k < |script| ==> !Auth.IsTokenExpired(c.session.config.strava, script[k].now)
  }

  predicate IsRateLimited(a: Attempt) {
    a.outcome.Response? && a.outcome.status == 429
  }

  /** An attempt with valid tokens that meets a 429 sends the current token and keeps the session. */
  lemma RateLimitedAttempt(c: Client, a: Attempt, retryCount: nat)
    requires HasTokens(c.session.config.strava) && !Auth.IsTokenExpired(c.session.config.strava, a.now)
    requires IsRateLimited(a)
    ensures var e := RunAttempt(c, a, retryCount);
      && e.client.session == c.session
      && e.bearer == Some(c.session.config.strava.accessToken)
      && e.step == (if retryCount < MaxRetries then Retry(RateLimitBaseDelay * Pow2(retryCount))
                    else Done(Err(StravaApiError(RateLimitExceeded, 429))))
  {
  }

  /** The client after a call sent with valid, unexpired tokens: the same session, the limits read from the response. */
  function AfterCall(c: Client, a: Attempt): Client {
    Client(c.session, RateAfter(c.rateLimit, a.outcome))
  }

  /** One 429 with valid tokens below the retry limit: a back-off of 60 * 2^n, then the rest of the script. */
  lemma RateLimitedStep(c: Client, script: seq<Attempt>, n: nat)
    requires n < MaxRetries && ScriptCovers(script, n)
    requires HasTokens(c.session.config.strava) && !Auth.IsTokenExpired(c.session.config.strava, script[0].now)
    requires IsRateLimited(script[0])
    ensures ScriptCovers(script[1..], n + 1)
    ensures RequestFrom(c, script, n)
         == After([RateLimitBaseDelay * Pow2(n)], [c.session.config.strava.accessToken], 1,
                  RequestFrom(AfterCall(c, script[0]), script[1..], n + 1))
  {
    RateLimitedAttempt(c, script[0], n);
    UnfoldRetry(c, script, n);
  }

  /** A 429 with valid tokens once the counter has run out ends the call with a 429 error. */
  lemma RateLimitedLast(c: Client, script: seq<Attempt>)
    requires ScriptCovers(script, MaxRetries)
    requires HasTokens(c.session.config.strava) && !Auth.IsTokenExpired(c.session.config.strava, script[0].now)
    requires IsRateLimited(script[0])
    ensures RequestFrom(c, script, MaxRetries)
         == RequestTrace(Err(StravaApiError(RateLimitExceeded, 429)), AfterCall(c, script[0]), [],
                         [c.session.config.strava.accessToken], 1)
  {
    RateLimitedAttempt(c, script[0], MaxRetries);
    UnfoldDone(c, script, MaxRetries);
  }

  /** The attempt meets a 429 while the tokens `cfg` are still valid. */
  predicate LimitedWhileValid(cfg: StravaConfig, a: Attempt) {
    !Auth.IsTokenExpired(cfg, a.now) && IsRateLimited(a)
  }

  /** 429s at retry counts 2 and 3: one back-off of 240 seconds, then the 429 error. */
  lemma RateLimitedFromTwo(c: Client, script: seq<Attempt>)
    requires ScriptCovers(script, 2) && HasTokens(c.session.config.strava)
    requires LimitedWhileValid(c.session.config.strava, script[0]) && LimitedWhileValid(c.session.config.strava, script[1])
    ensures var t := RequestFrom(c, script, 2);
      var token := c.session.config.strava.accessToken;
      && t.sleeps == [240] && t.bearers == [token, token] && t.attempts == 2
      && t.result == Err(StravaApiError(RateLimitExceeded, 429))
  {
    RateLimitedStep(c, script, 2);
    assert script[1..][0] == script[1];
    RateLimitedLast(AfterCall(c, script[0]), script[1..]);
    assert Pow2(2) == 4;
  }

  /** 429s at retry counts 1, 2 and 3: back-offs of 120 and 240 seconds, then the 429 error. */
  lemma RateLimitedFromOne(c: Client, script: seq<Attempt>)
    requires ScriptCovers(script, 1) && HasTokens(c.session.config.strava)
    requires LimitedWhileValid(c.session.config.strava, script[0]) && LimitedWhileValid(c.session.config.strava, script[1])
    requires LimitedWhileValid(c.session.config.strava, script[2])
    ensures var t := RequestFrom(c, script, 1);
      var token := c.session.config.strava.accessToken;
      && t.sleeps == [120, 240] && t.bearers == [token, token, token] && t.attempts == 3
      && t.result == Err(StravaApiError(RateLimitExceeded, 429))
  {
    RateLimitedStep(c, script, 1);
    assert script[1..][0] == script[1] && script[1..][1] == script[2];
    RateLimitedFromTwo(AfterCall(c, script[0]), script[1..]);
    assert Pow2(1) == 2;
  }

  /**
   * Consecutive 429s with valid tokens: sleeps of 60, 120 and 240 seconds, then
   * `StravaAPIError` with `status_code` 429 after the fourth attempt, each
   * attempt sending the same access token.
   */
  lemma ConsecutiveRateLimits(c: Client, script: seq<Attempt>)
    requires |script| > MaxRetries && ValidAtEveryCheck(c, script)
    requires forall k :: 0 <= k <= MaxRetries ==> IsRateLimited(script[k])
    ensures var t := RequestFrom(c, script, 0);
      var token := c.session.config.strava.accessToken;
      && t.sleeps == [60, 120, 240]
      && t.result == Err(StravaApiError(RateLimitExceeded, 429))
      && t.attempts == 4
      && t.bearers == [token, token, token, token]
  {
    var cfg := c.session.config.strava;
    assert LimitedWhileValid(cfg, script[0]) && LimitedWhileValid(cfg, script[1]);
    assert LimitedWhileValid(cfg, script[2]) && LimitedWhileValid(cfg, script[3]);
    var rest := script[1..];
    assert rest[0] == script[1] && rest[1] == script[2] && rest[2] == script[3];
    var c1 := AfterCall(c, script[0]);
    assert c1.session == c.session;
    RateLimitedStep(c, script, 0);
    RateLimitedFromOne(c1, rest);
    assert Pow2(0) == 1;
  }

  /** A 429 on a later try waits 60 * 2^k, where k counts every retry before it, timeouts included. */
  lemma TimeoutThenRateLimit(c: Client, script: seq<Attempt>)
    requires |script| > MaxRetries && ValidAtEveryCheck(c, script)
    requires script[0].outcome.Timeout? && IsRateLimited(script[1])
    ensures var t := RequestFrom(c, script, 0);
      |t.sleeps| >= 2 && t.sleeps[0] == 5 && t.sleeps[1] == 120
  {
    var c1 := RunAttempt(c, script[0], 0).client;
    assert c1.session == c.session;
    assert script[1..][0] == script[1];
  }

  /** 401, 403 and 404 fail at once with that status code, no retry, after the headers were read. */
  lemma ImmediateFailures(c: Client, script: seq<Attempt>)
    requires |script| > MaxRetries && ValidAtEveryCheck(c, script)
    requires script[0].outcome.Response? && script[0].outcome.status in {401, 403, 404}
    ensures var t := RequestFrom(c, script, 0);
      && t.result.Err? && t.result.error.StravaApiError?
      && t.result.error.statusCode == script[0].outcome.status
      && t.sleeps == [] && t.attempts == 1
      && t.client.rateLimit == RateLimits.UpdateRateLimits(c.rateLimit, script[0].outcome.headers)
  {
  }

  /**
   * A transport failure, another 4xx or 5xx, or an undecodable body fails at
   * once as "Request failed" with `status_code` 0, after the one call.
   */
  lemma CodeZeroFailures(c: Client, script: seq<Attempt>)
    requires |script| > MaxRetries
    requires HasTokens(c.session.config.strava) && !Auth.IsTokenExpired(c.session.config.strava, script[0].now)
    requires IsCodeZeroFailure(script[0].outcome)
    ensures RequestFrom(c, script, 0)
         == RequestTrace(Err(StravaApiError(RequestFailed, 0)), AfterCall(c, script[0]), [],
                         [c.session.config.strava.accessToken], 1)
  {
    UnfoldDone(c, script, 0);
  }

  /** A response outside 400-599 whose body decodes is returned at once, body and all. */
  lemma AcceptedResponse(c: Client, script: seq<Attempt>)
    requires |script| > MaxRetries
    requires HasTokens(c.session.config.strava) && !Auth.IsTokenExpired(c.session.config.strava, script[0].now)
    requires IsAccepted(script[0].outcome)
    ensures RequestFrom(c, script, 0)
         == RequestTrace(Ok(script[0].outcome.body.value), AfterCall(c, script[0]), [],
                         [c.session.config.strava.accessToken], 1)
  {
    UnfoldDone(c, script, 0);
  }

  /** A timeout with valid tokens below the retry limit: a 5 s sleep, then the rest of the script with the same client. */
  lemma TimedOutStep(c: Client, script: seq<Attempt>, n: nat)
    requires n < MaxRetries && ScriptCovers(script, n)
    requires HasTokens(c.session.config.strava) && !Auth.IsTokenExpired(c.session.config.strava, script[0].now)
    requires script[0].outcome.Timeout?
    ensures ScriptCovers(script[1..], n + 1)
    ensures RequestFrom(c, script, n)
         == After([TimeoutDelay], [c.session.config.strava.accessToken], 1, RequestFrom(c, script[1..], n + 1))
  {
    UnfoldRetry(c, script, n);
  }

  /**
   * Four timeouts with valid tokens: three sleeps of 5 s, then "Request timed
   * out" with `status_code` 0 after the fourth attempt.
   */
  lemma TimeoutsRunOut(c: Client, script: seq<Attempt>)
    requires |script| > MaxRetries && ValidAtEveryCheck(c, script)
    requires forall k :: 0 <= k <= MaxRetries ==> script[k].outcome.Timeout?
    ensures var t := RequestFrom(c, script, 0);
      var token := c.session.config.strava.accessToken;
      && t.sleeps == [5, 5, 5]
      && t.result == Err(StravaApiError(RequestTimedOut, 0))
      && t.attempts == 4
      && t.bearers == [token, token, token, token]
      && t.client == c
  {
    var s1 := script[1..];
    var s2 := s1[1..];
    var s3 := s2[1..];
    assert s1[0] == script[1] && s2[0] == script[2] && s3[0] == script[3];
    TimedOutStep(c, script, 0);
    TimedOutStep(c, s1, 1);
    TimedOutStep(c, s2, 2);
    UnfoldDone(c, s3, MaxRetries);
  }

  /** Every `StravaAPIError` carries the status code of its message; only the four HTTP ones are non-zero. */
  lemma {:induction false} StatusCodesMatchKinds(c: Client, script: seq<Attempt>, retryCount: nat)
    requires ScriptCovers(script, retryCount)
    ensures var t := RequestFrom(c, script, retryCount);
      t.result.Err? && t.result.error.StravaApiError? ==>
        && t.result.error.statusCode == StatusCodeOf(t.result.error.kind)
        && (t.result.error.statusCode != 0 <==> t.result.error.kind in {RateLimitExceeded, AuthenticationFailed, AccessForbidden, ResourceNotFound})
    decreases |script|
  {
    var e := RunAttempt(c, script[0], retryCount);
    if e.step.Retry? {
      UnfoldRetry(c, script, retryCount);
      StatusCodesMatchKinds(e.client, script[1..], retryCount + 1);
    } else {
      UnfoldDone(c, script, retryCount);
    }
  }

  /** A body is returned only from a call whose status is neither an error nor one of the handled codes. */
  lemma {:induction false} SuccessComesFromAnAcceptedResponse(c: Client, script: seq<Attempt>, retryCount: nat)
    requires ScriptCovers(script, retryCount)
    ensures var t := RequestFrom(c, script, retryCount);
      && 1 <= t.attempts <= |script|
      && (t.result.Ok? ==>
        var last := script[t.attempts - 1].outcome;
        && last.Response? && !(400 <= last.status < 600)
        && last.body == Some(t.result.value)
        && |t.bearers| == t.attempts)
    decreases |script|
  {
    var e := RunAttempt(c, script[0], retryCount);
    if e.step.Retry? {
      UnfoldRetry(c, script, retryCount);
      var rest := RequestFrom(e.client, script[1..], retryCount + 1);
      SuccessComesFromAnAcceptedResponse(e.client, script[1..], retryCount + 1);
      if rest.result.Ok? {
        assert script[1..][rest.attempts - 1] == script[rest.attempts];
      }
    } else {
      UnfoldDone(c, script, retryCount);
      ClassifyAccepts(script[0].outcome, retryCount);
    }
  }
}

=== FILE: text.dfy ===
/**
 * The handful of Python string built-ins the program leans on: `str(n)` for an
 * int, `int(s)` for a decimal string, `str.strip()`, `str.split(sep)` and the
 * `02d` zero padding used by f-strings.
 */
module Text {
  import opened Wrappers

  predicate IsDigit(c: char) {
    '0' <= c <= '9'
  }

  predicate AllDigits(s: string) {
    forall i :: 0 <= i < |s| ==> IsDigit(s[i])
  }

  function DigitValue(c: char): (d: nat)
    requires IsDigit(c)
    ensures d < 10
  {
    (c as int) - ('0' as int)
  }

  function DigitChar(d: nat): (c: char)
    requires d < 10
    ensures IsDigit(c) && DigitValue(c) == d
  {
    (('0' as int) + d) as char
  }

  /** Decimal rendering of a natural number, most significant digit first. */
  function NatToString(n: nat): (s: string)
    ensures |s| > 0 && AllDigits(s)
    decreases n
  {
    if n < 10 then [DigitChar(n)] else NatToString(n / 10) + [DigitChar(n % 10)]
  }

  /** A decimal numeral as `str(n)` writes one: digits only, and no leading zero unless it is `0` itself. */
  predicate IsNumeral(s: string) {
    |s| > 0 && AllDigits(s) && (|s| == 1 || s[0] != '0')
  }

  lemma {:induction false} NatToStringIsNumeral(n: nat)
    ensures IsNumeral(NatToString(n))
    ensures n > 0 ==> NatToString(n)[0] != '0'
    decreases n
  {
    if n >= 10 {
      NatToStringIsNumeral(n / 10);
      assert NatToString(n)[0] == NatToString(n / 10)[0];
    }
  }

  /** The number a string of decimal digits denotes. */
  function DigitsValue(s: string): nat
    requires AllDigits(s)
  {
    if |s| == 0 then 0 else 10 * DigitsValue(s[..|s| - 1]) + DigitValue(s[|s| - 1])
  }

  lemma {:induction false} NatToStringRoundTrip(n: nat)
    ensures DigitsValue(NatToString(n)) == n
    decreases n
  {
    if n >= 10 {
      var s := NatToString(n);
      assert s[..|s| - 1] == NatToString(n / 10);
      NatToStringRoundTrip(n / 10);
    }
  }

  /** Python's `str(n)` for an int: an optional minus sign, then the digits. */
  function IntToString(n: int): string {
    if n < 0 then "-" + NatToString(-n) else NatToString(n)
  }

  /** f"{n:02d}" for a non-negative n: at least two digits, zero-filled on the left. */
  function ZeroPad2(n: nat): (s: string)
    ensures |s| >= 2 && AllDigits(s)
  {
    if n < 10 then "0" + NatToString(n) else NatToString(n)
  }

  lemma ZeroPad2Value(n: nat)
    ensures DigitsValue(ZeroPad2(n)) == n
  {
    NatToStringRoundTrip(n);
    if n < 10 {
      var s := ZeroPad2(n);
      assert s[..|s| - 1] == "0";
    }
  }

  // ---------------------------------------------------------------------------
  // Whitespace and str.strip()

  /** The characters Python's `str.isspace()` accepts. */
  predicate IsSpace(c: char) {
    || c == ' '
    || '\t' <= c <= '\r'
    || '\U{1C}' <= c <= '\U{1F}'
    || c == '\U{85}' || c == '\U{A0}' || c == '\U{1680}'
    || '\U{2000}' <= c <= '\U{200A}'
    || c == '\U{2028}' || c == '\U{2029}' || c == '\U{202F}' || c == '\U{205F}'
    || c == '\U{3000}'
  }

  function TrimStart(s: string): (t: string)
    ensures |t| <= |s| && t == s[|s| - |t|..]
    ensures |t| > 0 ==> !IsSpace(t[0])
    ensures forall i :: 0 <= i < |s| - |t| ==> IsSpace(s[i])
  {
    if |s| > 0 && IsSpace(s[0]) then TrimStart(s[1..]) else s
  }

  function TrimEnd(s: string): (t: string)
    ensures |t| <= |s| && t == s[..|t|]
    ensures |t| > 0 ==> !IsSpace(t[|t| - 1])
    ensures forall i :: |t| <= i < |s| ==> IsSpace(s[i])
  {
    if |s| > 0 && IsSpace(s[|s| - 1]) then TrimEnd(s[..|s| - 1]) else s
  }

  /** Python's `str.strip()` with no argument. */
  function Strip(s: string): string {
    TrimEnd(TrimStart(s))
  }

  /** A string that neither starts nor ends with whitespace is its own strip. */
  lemma StripUnpadded(s: string)
    requires |s| > 0 ==> !IsSpace(s[0]) && !IsSpace(s[|s| - 1])
    ensures Strip(s) == s
  {
  }

  // ---------------------------------------------------------------------------
  // int(s)

  /** Decimal digits with single underscores between them, as `int()` accepts ("1_000"). */
  predicate IsDigitRun(t: string) {
    && |t| > 0 && IsDigit(t[0]) && IsDigit(t[|t| - 1])
    && (forall i :: 0 <= i < |t| ==> IsDigit(t[i]) || t[i] == '_')
    && (forall i :: 0 <= i < |t| - 1 ==> !(t[i] == '_' && t[i + 1] == '_'))
  }

  function DropUnderscores(t: string): (u: string)
    requires forall i :: 0 <= i < |t| ==> IsDigit(t[i]) || t[i] == '_'
    ensures AllDigits(u)
  {
    if |t| == 0 then "" else (if t[0] == '_' then "" else [t[0]]) + DropUnderscores(t[1..])
  }

  lemma DropUnderscoresOfDigits(t: string)
    requires AllDigits(t)
    ensures DropUnderscores(t) == t
  {
  }

  function ParseUnsigned(t: string): Option<int> {
    if IsDigitRun(t) then Some(DigitsValue(DropUnderscores(t))) else None
  }

  /**
   * Python's `int(s)` on a string: surrounding whitespace, an optional sign and
   * a digit run; `None` stands for the ValueError raised on anything else.
   */
  function ParseInt(s: string): (r: Option<int>)
    ensures r.Some? ==> |Strip(s)| > 0
  {
    var t := Strip(s);
    if |t| > 0 && t[0] == '-' then
      match ParseUnsigned(t[1..])
      case Some(n) => Some(-n)
      case None => None
    else if |t| > 0 && t[0] == '+' then
      match ParseUnsigned(t[1..])
      case Some(n) => Some(n)
      case None => None
    else
      ParseUnsigned(t)
  }

  lemma UnsignedRoundTrip(m: nat)
    ensures ParseUnsigned(NatToString(m)) == Some(m)
  {
    var digits := NatToString(m);
    assert IsDigitRun(digits);
    DropUnderscoresOfDigits(digits);
    NatToStringRoundTrip(m);
  }

  /** `int(str(n)) == n`: the decimal rendering parses back to the number. */
  lemma IntRoundTrip(n: int)
    ensures ParseInt(IntToString(n)) == Some(n)
  {
    var m: nat := if n < 0 then -n else n;
    var digits := NatToString(m);
    var s := IntToString(n);
    assert !IsSpace(s[0]) && !IsSpace(s[|s| - 1]);
    StripUnpadded(s);
    assert Strip(s) == s;
    UnsignedRoundTrip(m);
    if n < 0 {
      assert s == "-" + digits;
      assert s[1..] == digits;
    } else {
      assert s == digits;
      assert s[0] != '-' && s[0] != '+';
    }
  }

  // ---------------------------------------------------------------------------
  // str.split(sep) and its inverse sep.join(parts)

  /** Python's `s.split(sep)` for a one-character separator: never an empty list. */
  function Split(s: string, sep: char): (parts: seq<string>)
    ensures |parts| > 0
    ensures forall i :: 0 <= i < |parts| ==> sep !in parts[i]
  {
    if |s| == 0 then [""]
    else
      var rest := Split(s[1..], sep);
      if s[0] == sep then [""] + rest else [[s[0]] + rest[0]] + rest[1..]
  }

  /** Python's `sep.join(parts)`. */
  function Join(parts: seq<string>, sep: char): string
    requires |parts| > 0
  {
    if |parts| == 1 then parts[0] else parts[0] + [sep] + Join(parts[1..], sep)
  }

  /** Joining the parts of a split restores the string. */
  lemma {:induction false} JoinSplit(s: string, sep: char)
    ensures Join(Split(s, sep), sep) == s
  {
    if |s| > 0 {
      var rest := Split(s[1..], sep);
      JoinSplit(s[1..], sep);
      if s[0] == sep {
        assert Split(s, sep)[1..] == rest;
      } else if |rest| > 1 {
        assert Split(s, sep)[1..] == rest[1..];
        assert Join(rest, sep) == rest[0] + [sep] + Join(rest[1..], sep);
      }
    }
  }

  /** A separator-free prefix glues onto the first part of what follows it. */
  lemma {:induction false} SplitSeparatorFree(a: string, t: string, sep: char)
    requires sep !in a
    ensures Split(a + t, sep) == [a + Split(t, sep)[0]] + Split(t, sep)[1..]
  {
    if |a| > 0 {
      assert (a + t)[1..] == a[1..] + t;
      assert (a + t)[0] == a[0];
      SplitSeparatorFree(a[1..], t, sep);
      assert [a[0]] + (a[1..] + Split(t, sep)[0]) == a + Split(t, sep)[0];
    } else {
      var p := Split(t, sep);
      assert a + t == t;
      assert a + p[0] == p[0];
      assert [p[0]] + p[1..] == p;
    }
  }

  /** Splitting separator-free parts after joining them gives the parts back. */
  lemma {:induction false} SplitJoin(parts: seq<string>, sep: char)
    requires |parts| > 0
    requires forall i :: 0 <= i < |parts| ==> sep !in parts[i]
    ensures Split(Join(parts, sep), sep) == parts
  {
    if |parts| == 1 {
      SplitSeparatorFree(parts[0], "", sep);
      assert parts[0] + "" == parts[0];
    } else {
      var tail := Join(parts[1..], sep);
      SplitJoin(parts[1..], sep);
      assert Join(parts, sep) == parts[0] + ([sep] + tail);
      SplitSeparatorFree(parts[0], [sep] + tail, sep);
      assert ([sep] + tail)[1..] == tail;
      assert Split([sep] + tail, sep) == [""] + parts[1..];
      assert parts[0] + "" == parts[0];
    }
  }
}

=== FILE: urlencode.dfy ===
/**
 * Form encoding of a query string the way `urllib.parse.urlencode` does it with
 * its default `quote_plus`, and a decoder used to state what an encoded query
 * carries.
 */
module UrlEncoding {
  import opened Wrappers
  import Text

  /** The characters `quote_plus` leaves alone: ASCII letters and digits and `_.-~`. */
  predicate IsUnreserved(c: char) {
    || 'A' <= c <= 'Z' || 'a' <= c <= 'z' || '0' <= c <= '9'
    || c == '_' || c == '.' || c == '-' || c == '~'
  }

  predicate IsAscii(s: string) {
    forall i :: 0 <= i < |s| ==> s[i] < '\U{80}'
  }

  function HexDigit(d: nat): (c: char)
    requires d < 16
  {
    if d < 10 then Text.DigitChar(d) else (('A' as int) + d - 10) as char
  }

  predicate IsHexDigit(c: char) {
    '0' <= c <= '9' || 'A' <= c <= 'F' || 'a' <= c <= 'f'
  }

  function HexValue(c: char): (d: nat)
    requires IsHexDigit(c)
    ensures d < 16
  {
    if '0' <= c <= '9' then (c as int) - ('0' as int)
    else if 'A' <= c <= 'F' then (c as int) - ('A' as int) + 10
    else (c as int) - ('a' as int) + 10
  }

  /** `%XY` with upper-case hex digits. */
  function PercentByte(b: nat): (s: string)
    requires b < 256
    ensures |s| == 3 && s[0] == '%' && IsHexDigit(s[1]) && IsHexDigit(s[2])
    ensures 16 * HexValue(s[1]) + HexValue(s[2]) == b
  {
    ['%', HexDigit(b / 16), HexDigit(b % 16)]
  }

  /** The UTF-8 encoding of one Unicode scalar value. */
  function Utf8(c: char): (bytes: seq<nat>)
    ensures 1 <= |bytes| <= 4
    ensures forall i :: 0 <= i < |bytes| ==> bytes[i] < 256
    ensures c < '\U{80}' ==> bytes == [c as nat]
  {
    var cp := c as int;
    if cp < 0x80 then [cp]
    else if cp < 0x800 then [0xC0 + cp / 64, 0x80 + cp % 64]
    else if cp < 0x10000 then [0xE0 + cp / 4096, 0x80 + (cp / 64) % 64, 0x80 + cp % 64]
    else [0xF0 + cp / 262144, 0x80 + (cp / 4096) % 64, 0x80 + (cp / 64) % 64, 0x80 + cp % 64]
  }

  /** `quote_plus` of one character. */
  function QuoteChar(c: char): (s: string)
    ensures |s| > 0
    ensures forall i :: 0 <= i < |s| ==> s[i] != '&' && s[i] != '='
  {
    if IsUnreserved(c) then [c]
    else if c == ' ' then "+"
    else PercentBytes(Utf8(c))
  }

  function PercentBytes(bytes: seq<nat>): (s: string)
    requires forall i :: 0 <= i < |bytes| ==> bytes[i] < 256
    ensures |s| == 3 * |bytes|
    ensures forall i :: 0 <= i < |s| ==> s[i] == '%' || IsHexDigit(s[i])
  {
    if |bytes| == 0 then "" else PercentByte(bytes[0]) + PercentBytes(bytes[1..])
  }

  /** `urllib.parse.quote_plus(s)`: spaces become `+`, reserved characters `%XY` per UTF-8 byte. */
  function QuotePlus(s: string): (q: string)
    ensures forall i :: 0 <= i < |q| ==> q[i] != '&' && q[i] != '='
  {
    if |s| == 0 then "" else QuoteChar(s[0]) + QuotePlus(s[1..])
  }

  /** `urllib.parse.urlencode(pairs)`: `key=value` pairs joined by `&`. */
  function Urlencode(pairs: seq<(string, string)>): string {
    if |pairs| == 0 then "" else Text.Join(EncodedPairs(pairs), '&')
  }

  function EncodedPairs(pairs: seq<(string, string)>): (parts: seq<string>)
    ensures |parts| == |pairs|
    ensures forall i :: 0 <= i < |parts| ==> parts[i] == QuotePlus(pairs[i].0) + "=" + QuotePlus(pairs[i].1)
  {
    if |pairs| == 0 then [] else [QuotePlus(pairs[0].0) + "=" + QuotePlus(pairs[0].1)] + EncodedPairs(pairs[1..])
  }

  // ---------------------------------------------------------------------------
  // Decoding, as a browser-side reading of an encoded query

  /** Inverse of `quote_plus` on ASCII text: `+` is a space, `%XY` the byte XY. */
  function UnquotePlus(s: string): string {
    if |s| == 0 then ""
    else if s[0] == '+' then " " + UnquotePlus(s[1..])
    else if s[0] == '%' && |s| >= 3 && IsHexDigit(s[1]) && IsHexDigit(s[2]) then
      [(16 * HexValue(s[1]) + HexValue(s[2])) as char] + UnquotePlus(s[3..])
    else [s[0]] + UnquotePlus(s[1..])
  }

  /** Splits `key=value&...` into decoded pairs; `None` when a part is not one `=` apart. */
  function DecodeQuery(q: string): Option<seq<(string, string)>> {
    DecodeParts(Text.Split(q, '&'))
  }

  function DecodeParts(parts: seq<string>): Option<seq<(string, string)>> {
    if |parts| == 0 then Some([])
    else
      var kv := Text.Split(parts[0], '=');
      if |kv| != 2 then None
      else match DecodeParts(parts[1..])
        case Some(rest) => Some([(UnquotePlus(kv[0]), UnquotePlus(kv[1]))] + rest)
        case None => None
  }

  lemma UnquoteQuoteChar(c: char, rest: string)
    requires c < '\U{80}'
    ensures UnquotePlus(QuoteChar(c) + rest) == [c] + UnquotePlus(rest)
  {
    if IsUnreserved(c) {
      assert (QuoteChar(c) + rest)[1..] == rest;
    } else if c == ' ' {
      assert (QuoteChar(c) + rest)[1..] == rest;
    } else {
      var p := PercentByte(c as nat);
      assert QuoteChar(c) == p;
      assert (p + rest)[3..] == rest;
      assert (p + rest)[0] == '%' && (p + rest)[1] == p[1] && (p + rest)[2] == p[2];
    }
  }

  /** `quote_plus` is undone by `UnquotePlus` on ASCII text. */
  lemma {:induction false} UnquoteQuote(s: string)
    requires IsAscii(s)
    ensures UnquotePlus(QuotePlus(s)) == s
  {
    if |s| > 0 {
      assert IsAscii(s[1..]);
      UnquoteQuote(s[1..]);
      UnquoteQuoteChar(s[0], QuotePlus(s[1..]));
      assert [s[0]] + s[1..] == s;
    }
  }

  /** An ASCII query encoded by `urlencode` decodes to exactly the pairs it was built from. */
  lemma {:induction false} DecodeUrlencode(pairs: seq<(string, string)>)
    requires |pairs| > 0
    requires forall i :: 0 <= i < |pairs| ==> IsAscii(pairs[i].0) && IsAscii(pairs[i].1)
    ensures DecodeQuery(Urlencode(pairs)) == Some(pairs)
  {
    var parts := EncodedPairs(pairs);
    Text.SplitJoin(parts, '&');
    DecodeEncodedParts(pairs);
  }

  /** One encoded `key=value` part splits at its only `=` and decodes to the pair. */
  lemma DecodeEncodedPair(key: string, value: string)
    requires IsAscii(key) && IsAscii(value)
    ensures var kv := Text.Split(QuotePlus(key) + "=" + QuotePlus(value), '=');
      |kv| == 2 && UnquotePlus(kv[0]) == key && UnquotePlus(kv[1]) == value
  {
    var k := QuotePlus(key);
    var v := QuotePlus(value);
    assert k + "=" + v == Text.Join([k, v], '=');
    Text.SplitJoin([k, v], '=');
    UnquoteQuote(key);
    UnquoteQuote(value);
  }

  lemma {:induction false} DecodeEncodedParts(pairs: seq<(string, string)>)
    requires forall i :: 0 <= i < |pairs| ==> IsAscii(pairs[i].0) && IsAscii(pairs[i].1)
    ensures DecodeParts(EncodedPairs(pairs)) == Some(pairs)
  {
    if |pairs| > 0 {
      var parts := EncodedPairs(pairs);
      DecodeEncodedPair(pairs[0].0, pairs[0].1);
      assert parts[1..] == EncodedPairs(pairs[1..]);
      DecodeEncodedParts(pairs[1..]);
      assert [pairs[0]] + pairs[1..] == pairs;
    }
  }
}

=== FILE: wrappers.dfy ===
/** Failure-compatible wrappers shared by every module of the model. */
module Wrappers {

  /** A value that may be absent (Python's `Optional`). */
  datatype Option<+T> = None | Some(value: T) {

    /** The wrapped value, or `default` when there is none (Python's `x if x is not None else d`). */
    function GetOr(default: T): T {
      match this
      case Some(v) => v
      case None => default
    }
  }

  /** Either a value or the failure that an operation raised instead. */
  datatype Result<+R, +E> = Ok(value: R) | Err(error: E) {

    predicate IsFailure() {
      Err?
    }

    function PropagateFailure<U>(): Result<U, E>
      requires Err?
    {
      Err(error)
    }

    function Extract(): R
      requires Ok?
    {
      value
    }
  }
}
